=== FILE: README.md ===
# srcfg parser core, modelled in Dafny

`srcfg` reads a line-oriented configuration format. The format has:

- scalar sections `[a.b.c]`;
- array sections `[[items]]`;
- dot-prefixed sections `[.sibling]`, which resolve under the current section's outermost ancestor;
- `key = value` entries, whose value drops its `;;` comment and has one `${VAR}` placeholder replaced from the environment;
- `key := value` entries, whose value is stored verbatim;
- continuation rows `= more` and `:= more`, which append a newline and the text to the current key's entry;
- `@import other.srcfg`, which deep-merges another file into the one being built.

A bad line records an error at its 1-based line number, and parsing continues with the next line.

This project models the core of `srcfg/__init__.py` as pure functions over immutable values. It also proves what that code promises.

| module | file | models |
|---|---|---|
| `Text` | `text.dfy` | `str.strip`, `in`/`index`, `split("\n")` and `str.replace`, with Python's whitespace set |
| `Tree` | `tree.dfy` | the section tree and the read accessors (`get_section`, `get_section_list`, `__getitem__`, `get_value`) |
| `Resolver` | `resolver.dfy` | `SrcfgFile._add_section` and `SrcfgSection._get_top_section` |
| `Header` | `header.dfy` | `_parse_section_row` |
| `Value` | `value.dfy` | `_parse_value` |
| `Merge` | `merge.dfy` | `_extend_section` |
| `Parser` | `parser.dfy` | `parse`: the per-line state machine and the whole-file run |

Representation choices:

- **Children.** A section's children are an insertion-ordered list of name bindings, as Python dictionaries are. Lookup finds a name's binding. Assigning to a bound name replaces the binding in place, and assigning to a new name appends one. The order is observable because the merge walks the source in that order and stops at the first conflict.
- **Parent pointers.** These become paths from the file. A path is a list of steps, and each step is a child name plus an element index when the name is an array section. The top section of a path is its first step.
- **Environment.** The environment (`os.environ`) is a map parameter.
- **`@import`.** The outcome of `parse_file` on an import target comes from an oracle map.
  - A target with no entry is one that the file search does not find. It gives the "Unable to find file" error of `parse_file`.
  - `Raised` stands for an exception in the imported parse, which ends this parse too. Examples are `@insert` inside a section, or opening a missing explicit path.
- **`@insert` inside a section.** This raises `NotImplementedError`, which ends the whole parse. The model calls this outcome `Aborted`.

Points where the code does something other than one might expect, modelled as the code does them:

- **Placeholders.** The pattern `\${(.+)}` is greedy and a value holds at most one match, running to the last `}` on the line. So `${A} ${B}` names the variable `A} ${B` (`Value.GreedyPlaceholder`). One might expect every placeholder to be replaced; the code replaces the single greedy match.
- **`@insert`.** Inside a section, `@insert` raises and the parse ends. It is not recorded as a per-line error.
- **Dots after the first segment.** The recursive step of `_add_section` passes no current section. So a dot that starts a later segment, as in `[a..b]`, fails as a dot-outside-section error after `a` has been created (`Resolver.DoubleDotFailsAfterCreatingHead`).
- **Merging into a section.** Merging a file into a section is an error. Merging a section into the file ignores the section's entries (`Merge.Extend`).

## Model

| member | source | states |
|---|---|---|
| Text.Strip | srcfg/__init__.py:233 | `str.strip()`: the result has no whitespace at either end, and it is the input with only whitespace removed before and after it |
| Text.IndexOf | srcfg/__init__.py:317-318 | `v.index(";;")`: the first occurrence, and none before it; `None` exactly when there is none |
| Text.Split | srcfg/__init__.py:230 | `contents.split("\n")`: at least one piece, no piece holds a newline, and joining the pieces with newlines gives back the contents |
| Text.SplitJoin | srcfg/__init__.py:230 | splitting a newline-join of newline-free pieces gives back the same pieces |
| Text.SplitCons | srcfg/__init__.py:230 | splitting at a first separator gives the text before it followed by the pieces of the rest |
| Text.ReplaceAll | srcfg/__init__.py:325 | `str.replace`: text with no occurrence of the pattern is returned unchanged |
| Text.ReplaceSingleOccurrence | srcfg/__init__.py:325 | when the pattern occurs exactly once, `replace` splices the replacement in at that place and keeps the text around it |
| Tree.Bind | srcfg/__init__.py:85 | dictionary assignment: the name is then bound to the new slot, and every other name keeps its binding; a bound name stays where it was; a new name goes at the end |
| Tree.BindDistinct | srcfg/__init__.py:85 | assignment keeps every name bound at most once, as a dictionary's keys are |
| Tree.Modify | srcfg/__init__.py:306-308 | writing through the current section: the path then leads to the new section, and every path starting at another top-level name leads where it did |
| Tree.ModifyKeeps | srcfg/__init__.py:306-308 | replacing one section by one that keeps its own sub-sections keeps every path of the tree |
| Tree.ModifyEntriesFrame | srcfg/__init__.py:306-308 | writing one section's entries keeps the entries of every other section, and no path appears or disappears |
| Tree.GetSection | srcfg/__init__.py:132-136 | `get_section`: succeeds exactly when the name is bound to one section, which it returns; a missing name is a `KeyError`, and an array binding is exactly the "Unexpected section list" error for that name |
| Tree.GetSectionList | srcfg/__init__.py:138-142 | `get_section_list`: succeeds exactly when the name is bound to an array section, whose elements it returns; a missing name is a `KeyError`, and a single section is exactly the "Unexpected section (expected a list)" error for that name |
| Tree.HasSection | srcfg/__init__.py:27-28 | `has_section` / `name in file`: true exactly when some binding carries the name |
| Tree.HasSectionAccessors | srcfg/__init__.py:129-142 | a name `has_section` reports is readable by exactly one of `get_section` and `get_section_list`, and an unknown name by neither |
| Tree.FileItem | srcfg/__init__.py:19-20 | `file[name]`: the binding of the name, or a `KeyError` for that name exactly when the name is unbound |
| Tree.GetItem | srcfg/__init__.py:124-127 | `section[name]`: child sections shadow entries of the same name; it fails exactly when the name is neither, and then with a `KeyError` for that name |
| Tree.Contains | srcfg/__init__.py:121-122 | `name in section` holds exactly when `section[name]` succeeds |
| Tree.GetValue | srcfg/__init__.py:149-153 | `get_value`/`get_str`: `None` exactly when the key is absent, else the stored text |
| Tree.HasKey | srcfg/__init__.py:146-147 | `has_key` holds exactly when `get_value` finds a value |
| Resolver.SplitFirstDot | srcfg/__init__.py:69 | `split(".", maxsplit=1)`: either the whole dotless name, or a dotless head and the tail after the first dot |
| Resolver.SplitAtFirstDot | srcfg/__init__.py:69 | splitting at the first dot and then splitting the tail on dots gives the same pieces as splitting the whole name on dots |
| Resolver.SpellsOutSplit | srcfg/__init__.py:66-69 | a resolved path's names are the header name split on dots |
| Resolver.TopSection | srcfg/__init__.py:183-187 | `_get_top_section`: the one-step prefix of the current path |
| Resolver.TopSectionExists | srcfg/__init__.py:183-187 | the top section of an existing section exists, and the section lies inside it |
| Resolver.DotlessIsTerminal | srcfg/__init__.py:69-74 | a name without a dot is resolved as a last segment |
| Resolver.ResolveTerminal | srcfg/__init__.py:74-96 | the last segment: on success the path has one step, which indexes an array element exactly when an array was asked for, and leads to a section |
| Resolver.ResolveIn | srcfg/__init__.py:66-109 | on success the path leads to a section, spells out the dotted name, and indexes only its last step, which it does exactly for an array request |
| Resolver.Descend | srcfg/__init__.py:98-109 | a dotted name: the head is (re)bound to a section holding the tail's result; errors of the tail pass through |
| Resolver.AddSection | srcfg/__init__.py:44-64 | a dot-prefixed name with no current section is an error that changes nothing; with one, the result lies under the current section's top section and spells out the name without its dot |
| Resolver.ResolveKeeps | srcfg/__init__.py:66-109 | resolution never removes a section, whether it succeeds or fails |
| Resolver.AddSectionKeeps | srcfg/__init__.py:44-64 | adding a section never removes one |
| Resolver.ResolveScalarIdempotent | srcfg/__init__.py:87-109 | resolving a scalar path a second time returns the same path and leaves the tree unchanged |
| Resolver.ArrayHeaderAppends | srcfg/__init__.py:76-86 | an array request appends one fresh section after the existing elements, or binds a one-element array; a scalar-bound name fails with nothing changed; other names keep their bindings |
| Resolver.ScalarHeaderFindsOrCreates | srcfg/__init__.py:87-96 | a scalar request returns the bound section unchanged or binds a fresh one; an array-bound name fails with nothing changed |
| Resolver.DottedPathHead | srcfg/__init__.py:99-109 | a head bound to an array section fails with nothing changed; otherwise the head is a section afterwards, even when the tail fails |
| Resolver.RepeatedArrayHeaders | srcfg/__init__.py:76-86 | `count` array headers for a new name list exactly `count` fresh, empty sections |
| Resolver.DoubleDotFailsAfterCreatingHead | srcfg/__init__.py:104-109 | `[a..b]` creates `a` and then fails as a dot outside a section |
| Header.Anchored | srcfg/__init__.py:363 | a pattern's closing `$` also accepts one final newline: a line ending in a newline is matched without it, and a newline-free line as it is |
| Header.ParseSectionRow | srcfg/__init__.py:362-372 | scalar exactly for `[` + scalar-name characters + `]`; array exactly for a `[[name]]` that is not scalar; the name has no surrounding whitespace, and an array name is non-empty |
| Header.HeaderStartsWithBracket | srcfg/__init__.py:362-372 | a recognised header starts with `[` |
| Header.ScalarRowRoundTrip | srcfg/__init__.py:363-366 | `[name]` reads back as the stripped name, scalar |
| Header.ArrayRowRoundTrip | srcfg/__init__.py:367-370 | `[[name]]` reads back as the name, array |
| Header.BlankHeaderName | srcfg/__init__.py:363-366 | a whitespace-only scalar header reads as the empty name |
| Value.LineEnd | srcfg/__init__.py:320 | the first newline at or after a position, or the end |
| Value.LastClose | srcfg/__init__.py:320 | the last `}` before a bound, with none after it |
| Value.GreedyClose | srcfg/__init__.py:320 | the greedy closing brace: it can close the placeholder, and no later one can |
| Value.MatchFrom | srcfg/__init__.py:320 | the leftmost match at or after a position, closed greedily; none when no match exists there |
| Value.FindPlaceholder | srcfg/__init__.py:320 | the first match of `\${(.+)}`: leftmost start, furthest close, no match before it; none when no match exists |
| Value.StripComment | srcfg/__init__.py:317-318 | the result holds no `;;`, is the input when there is none, and adds no newline (the kept text is pinned by `Value.CommentCut`) |
| Value.CommentFreeBeforeMarker | srcfg/__init__.py:317-318 | the text before the first `;;`, stripped, holds no `;;` and no character the value lacked |
| Value.CommentCut | srcfg/__init__.py:317-318 | for any `a` without `;;` that does not end in `;`, the value `a;;b` keeps exactly `a` stripped, whatever `b` holds |
| Value.NoCommentMarker | srcfg/__init__.py:317 | a value without `;` loses nothing to comment removal |
| Value.ParseValue | srcfg/__init__.py:314-329 | no placeholder gives the comment-stripped value; the result is an error exactly when the placeholder's variable is unset, and it names that variable; on one line a set variable's value is spliced in at the placeholder, keeping the text around it |
| Value.Substitute | srcfg/__init__.py:320-327 | the placeholder step: no match gives the text back; an error exactly when the matched variable is unset, naming it; on one line the variable's value is spliced in at the match and the text around it is kept |
| Value.MatchOccursOnce | srcfg/__init__.py:320-325 | on one line the matched text `${...}` occurs nowhere but at the match, so `replace` touches only that place |
| Value.SpliceOnLine | srcfg/__init__.py:320-325 | on one line, replacing the matched text is the same as splicing the replacement in at the match |
| Value.WrappedName | srcfg/__init__.py:317-322 | a one-line `${name}` has no comment and is a single match whose variable is `name` |
| Value.WholePlaceholder | srcfg/__init__.py:314-329 | a value that is just `${name}` reads as the variable's value, or fails naming `name` when it is unset |
| Value.GreedyPlaceholder | srcfg/__init__.py:320-327 | `${a} ${b}` asks for the single variable `a} ${b`, not for `a` and `b` |
| Merge.MergeNode | srcfg/__init__.py:337-341 | the merged section holds every key of both sides; the source's values win |
| Merge.MergeBindings | srcfg/__init__.py:342-360 | the only error the children merge reports is a kind conflict |
| Merge.MergeOne | srcfg/__init__.py:343-360 | one loop iteration reports no error other than a kind conflict |
| Merge.Extend | srcfg/__init__.py:331-360 | merging a file into a section is exactly the error case, and it changes nothing; a section into a section takes the union of entries with the source's values winning, and merges the subsections; into the file, only the source's sections are merged, so a section source's entries are ignored |
| Merge.MergeBindingsAppend | srcfg/__init__.py:342-360 | the merge is a left-to-right fold that stops at the first conflict, with everything before it applied |
| Merge.ConflictKeepsEarlierChanges | srcfg/__init__.py:348-352 | a section merged ahead of a conflict stays bound after the merge fails |
| Merge.MergeBindingsFrame | srcfg/__init__.py:342-360 | names the source does not bind keep their binding, conflict or not |
| Merge.MergeOneLookup | srcfg/__init__.py:343-360 | one loop iteration without conflict binds the source name as its merge rule says and leaves every other name alone |
| Merge.MergeNodeSucceeds | srcfg/__init__.py:343-358 | merging two sections succeeds exactly when their trees agree on the kind of every shared name |
| Merge.MergeBindingsSucceeds | srcfg/__init__.py:343-358 | the merge succeeds exactly when the trees agree on the kind of every shared name, at every level |
| Merge.MergeBindingsLookup | srcfg/__init__.py:343-360 | after a successful merge each name is bound as follows: untouched if only the destination binds it, the source's binding if only the source does, the recursive merge of two sections, or the two arrays concatenated |
| Merge.ArraysConcatenate | srcfg/__init__.py:358 | two array sections become the destination's elements followed by the source's, with no deduplication |
| Merge.MergeNodeKeeps | srcfg/__init__.py:343-360 | a section merge never removes a section of the destination |
| Merge.MergeBindingsKeeps | srcfg/__init__.py:343-360 | a merge never removes a section of the destination, even when it fails |
| Parser.RowPieces | srcfg/__init__.py:278 | `^\s*([a-zA-Z0-9_-]*)\s*`: leading whitespace, a key-character run and whitespace, which together with the remainder make up the line |
| Parser.SplitOp | srcfg/__init__.py:278 | `(:?=)`: `:=` or `=` at the start, and the text after it; none exactly when neither is there |
| Parser.ParseKeyValue | srcfg/__init__.py:278-288 | a parsed row is whitespace, its key, whitespace, its operator and its value text |
| Parser.KeyValueParses | srcfg/__init__.py:278-288 | every such row parses to its key, operator and value text |
| Parser.EntryValue | srcfg/__init__.py:294-298 | `:=` keeps the text after the operator verbatim; `=` strips it and interprets it as a value |
| Parser.ImportLine | srcfg/__init__.py:240-253 | ends the parse exactly when the import raised; a loaded file is always merged into the file by `_extend_section`, its errors nested in one "Got errors" error at this line, and a merge conflict recorded after it; an unfound file is one error; the key is cleared and the current section kept |
| Parser.HeaderLine | srcfg/__init__.py:261-271 | clears the key; a malformed or blank header is one error; otherwise the section is added, and the resolved path becomes current with no error, or the resolver's error is recorded with the current section kept |
| Parser.EntryLine | srcfg/__init__.py:273-310 | keeps the current section and adds at most one error; with no section the line is exactly the "outside a section" error, and inside one a row that does not parse is exactly the "unable to parse" error |
| Parser.StepLine | srcfg/__init__.py:233-310 | the state stays valid: the current section exists, and the current key names one of its entries. No section is ever lost, and errors only grow, at this line. Only an `@import` or an `@insert` inside a section ends the parse |
| Parser.Run | srcfg/__init__.py:229-312 | no section is ever lost, and each new error carries the number of one of the lines run |
| Parser.Parse | srcfg/__init__.py:219-312 | every error carries a line number between 1 and the number of lines |
| Parser.Fold | srcfg/__init__.py:229-232 | the loop over lines: no lines leave the state as it was, and one line is one step |
| Parser.FoldAppend | srcfg/__init__.py:229-232 | the loop over `a + b` is the loop over `a` continued over `b` from the state `a` left, with `b` numbered after `a`; a step that raises ends both |
| Parser.RunState | srcfg/__init__.py:226-312 | the state after a run of lines is valid and keeps every earlier error; no lines change nothing, and one line is exactly the line rule |
| Parser.RunStateCons | srcfg/__init__.py:229-312 | a run of a first line and the rest is the line rule on the first line, then a run of the rest numbered from the next line |
| Parser.RunIsRunState | srcfg/__init__.py:229-312 | a finished run returns the file and errors of the state its lines reach, and is aborted exactly when that run raised |
| Parser.RunStateAppend | srcfg/__init__.py:229-312 | running `a + b` runs `a` and then, unless it raised, `b` from the state `a` left, errors and current section included |
| Parser.ErrorLineContinues | srcfg/__init__.py:229-312 | a line that does not raise, including one that only records an error, lets the parse go on with the rest of the lines |
| Parser.ParseIsRun | srcfg/__init__.py:219-232 | parsing newline-free lines joined by newlines runs exactly those lines from line 1 |
| Parser.SkippedLines | srcfg/__init__.py:233-239 | blank and `;;` lines change nothing |
| Parser.DirectivesClearKey | srcfg/__init__.py:240-262 | `@import`, `@insert` and headers clear the current key |
| Parser.InsertLine | srcfg/__init__.py:254-260 | `@insert` outside a section is an error and clears the key; inside one it ends the parse |
| Parser.ImportTargets | srcfg/__init__.py:240-253 | an unfound target records one error carrying "file not found", and changes no section; a raising import ends the parse |
| Parser.ImportMerges | srcfg/__init__.py:246-253 | a clean import that merges leaves the merged tree, no new error and the same current section |
| Parser.HeaderDispatch | srcfg/__init__.py:261-263 | a line whose visible text starts with `[` is a header |
| Parser.MalformedHeader | srcfg/__init__.py:263-266 | a malformed header, or one with an empty name, records an error and keeps the tree and the current section |
| Parser.FreshScalarSection | srcfg/__init__.py:261-271 | a header for a new dotless scalar name binds a fresh section and makes it current, with no error |
| Parser.NewScalarHeader | srcfg/__init__.py:261-271 | `[name]` for a new dotless name binds a fresh section, makes it current, and adds no error |
| Parser.ArraySectionLine | srcfg/__init__.py:261-271 | an array header for a dotless name binds a one-element array when the name is new, and otherwise appends a fresh element and makes it current |
| Parser.ArrayHeader | srcfg/__init__.py:261-271 | `[[name]]` appends a fresh section and makes it, the last element, current |
| Parser.RowDispatch | srcfg/__init__.py:272-288 | a key/value or continuation row reaches the row rule and parses to its parts |
| Parser.RowOutsideSection | srcfg/__init__.py:274-276 | a row outside a section records an error and changes nothing else |
| Parser.RowValueFails | srcfg/__init__.py:294-298 | a failed value records the error and changes neither the entries nor the current key |
| Parser.StoreEntry | srcfg/__init__.py:300-308 | storing an entry makes its key current; a continuation of an existing key appends a newline and the value, anything else sets the value; the current section's other entries and every other section's entries are kept, and no path appears or disappears |
| Parser.RowSetsEntry | srcfg/__init__.py:300-308 | a row with a key overwrites that entry with the value and makes the key current |
| Parser.RowContinues | srcfg/__init__.py:304-310 | a row without a key appends a newline and the value to the current key's entry; with no current key it is the "Please specify a key" error |
| Parser.ContinuationExample | srcfg/__init__.py:300-308 | `[g]`, `k = a`, `:= b` leave `k` holding `a`, a newline and ` b`, with no error |

## Left out

- `parse_file`, `_find_file` and `_is_file_path` (srcfg/__init__.py:197-217, 374-386) read files and walk directories. An oracle parameter supplies the parse of each import target instead, so an imported file's own parse is not modelled here.
- The `cwd` argument of `parse` only feeds the file search, so it is not modelled.
- `os.environ` (srcfg/__init__.py:323-324) is a map parameter.
- The `print` calls (srcfg/__init__.py:59-61) have no effect on the result.
- `get_int`, `get_float` and `get_json` (srcfg/__init__.py:158-176) convert through Python's `int`, `float` and `json.loads`, which are not modelled.
- `Tree.GetValue` models `get_value` with the identity conversion, which is `get_str`; the callback is a foreign call.
- The iterators `__iter__` (srcfg/__init__.py:16-17, 118-119) are not modelled.
- `@insert` inside a section has no semantics beyond ending the parse.
- Object identity is not modelled. A merge binds the imported file's own section objects, and their parent pointers still point into the imported file. A dot-prefixed header under such a section therefore resolves in the imported tree, whereas here it resolves in the file being built.
- Error messages are constructors carrying the names involved, not formatted strings.
- The unreachable branches at srcfg/__init__.py:70-73 and 284-292 are omitted. `split` never returns an empty list, and `findall` with three groups always yields triples.
- `Merge.MergeBindingsSucceeds` and `Merge.MergeNodeSucceeds` assume that the source binds no name twice at any level. Parsed trees come from dictionaries and always satisfy this.
- `Parser.ParseKeyValue` and `Parser.StepLine` take lines without a newline, which is what splitting the contents on newlines produces.
- Value.Substitute: replaces the first match only. Python replaces one match per line, so the two differ only on a value spanning several lines, and every interpreted value comes from one line.

=== FILE: basics.dfy ===
/** Failure-compatible wrappers used throughout the model. */
module Basics {

  /** An optional value: the model's counterpart of Python's `None`. */
  datatype Option<+T> = None | Some(value: T)

  /** Either a value or an error; the Python code returns `(value, None)` or `(None, err)`. */
  datatype Result<+R, +E> = Ok(value: R) | Err(error: E) {
    predicate IsFailure() {
      Err?
    }

    function PropagateFailure<U>(): Result<U, E>
      requires Err?
    {
      Err(error)
    }

    function Extract(): R
      requires Ok?
    {
      value
    }
  }
}

=== FILE: header.dfy ===
/**
 * Section header lines (`_parse_section_row`): `[name]` for a scalar section,
 * `[[name]]` for an array section. The scalar form admits whitespace inside
 * the brackets and strips it from the name; the array form does not admit it.
 */
module Header {
  import opened Basics
  import opened Text

  datatype Header = Header(name: string, isArray: bool)

  predicate IsAsciiAlnum(c: char) {
    ('a' <= c <= 'z') || ('A' <= c <= 'Z') || ('0' <= c <= '9')
  }

  /** `[a-zA-Z0-9_.-]` */
  predicate IsArrayNameChar(c: char) {
    IsAsciiAlnum(c) || c == '_' || c == '.' || c == '-'
  }

  /** `[\sa-zA-Z0-9_.-]` */
  predicate IsScalarNameChar(c: char) {
    IsSpace(c) || IsArrayNameChar(c)
  }

  predicate AllScalarNameChars(s: string) {
    forall i :: 0 <= i < |s| ==> IsScalarNameChar(s[i])
  }

  predicate AllArrayNameChars(s: string) {
    forall i :: 0 <= i < |s| ==> IsArrayNameChar(s[i])
  }

  /** The text a pattern ending in `$` must match: `$` also matches just before a final newline. */
  function Anchored(l: string): (r: string)
    ensures '\n' !in l ==> r == l
    ensures r == l || l == r + "\n"
    ensures |l| > 0 && l[|l| - 1] == '\n' ==> l == r + "\n"
  {
    if |l| > 0 && l[|l| - 1] == '\n' then l[..|l| - 1] else l
  }

  /** Whether `b` is `[` + a non-empty run of scalar-name characters + `]`. */
  predicate ScalarRow(b: string) {
    |b| >= 3 && b[0] == '[' && b[|b| - 1] == ']' && AllScalarNameChars(b[1..|b| - 1])
  }

  /** Whether `b` is `[[` + a non-empty run of array-name characters + `]]`. */
  predicate ArrayRow(b: string) {
    |b| >= 5 && b[..2] == "[[" && b[|b| - 2..] == "]]" && AllArrayNameChars(b[2..|b| - 2])
  }

  /**
   * `_parse_section_row`: the header's name and kind, or `None` when the line
   * is not a header. The scalar name is stripped and may come out empty; the
   * parse driver rejects that case.
   */
  function ParseSectionRow(l: string): (r: Option<Header>)
    ensures r.Some? && !r.value.isArray <==> ScalarRow(Anchored(l))
    ensures r.Some? && r.value.isArray <==> !ScalarRow(Anchored(l)) && ArrayRow(Anchored(l))
    ensures r.Some? ==> NoSpaceAtEnds(r.value.name)
    ensures r.Some? && r.value.isArray ==> |r.value.name| > 0 && AllArrayNameChars(r.value.name)
  {
    var b := Anchored(l);
    if ScalarRow(b) then
      Some(Header(Strip(b[1..|b| - 1]), false))
    else if ArrayRow(b) then
      ArrayNameTrimmed(b[2..|b| - 2]);
      Some(Header(Strip(b[2..|b| - 2]), true))
    else
      None
  }

  /** Array-name characters hold no whitespace, so an array name is its own strip. */
  lemma ArrayNameTrimmed(s: string)
    requires AllArrayNameChars(s)
    ensures NoSpaceAtEnds(s) && Strip(s) == s
  {
    if |s| > 0 {
      assert IsArrayNameChar(s[0]) && IsArrayNameChar(s[|s| - 1]);
    }
    StripOfTrimmed(s);
  }

  /** A header line never starts with anything but `[`. */
  lemma HeaderStartsWithBracket(l: string)
    requires ParseSectionRow(l).Some?
    ensures |l| > 0 && l[0] == '['
  {
  }

  /** Writing `[name]` and reading it back gives the name without its surrounding whitespace. */
  lemma {:induction false} ScalarRowRoundTrip(name: string)
    requires |name| > 0 && AllScalarNameChars(name)
    ensures ParseSectionRow("[" + name + "]") == Some(Header(Strip(name), false))
  {
    var b := "[" + name + "]";
    assert Anchored(b) == b;
    assert b[1..|b| - 1] == name;
  }

  /** Writing `[[name]]` and reading it back gives the name and the array kind. */
  lemma {:induction false} ArrayRowRoundTrip(name: string)
    requires |name| > 0 && AllArrayNameChars(name)
    ensures ParseSectionRow("[[" + name + "]]") == Some(Header(name, true))
  {
    var b := "[[" + name + "]]";
    assert Anchored(b) == b by {
      assert b[|b| - 1] == ']';
    }
    assert !ScalarRow(b) by {
      assert b[1..|b| - 1][0] == '[';
      assert !IsScalarNameChar('[');
    }
    assert ArrayRow(b) by {
      assert b[..2] == "[[" && b[|b| - 2..] == "]]";
      assert b[2..|b| - 2] == name;
    }
    ArrayNameTrimmed(name);
  }

  /** A bracketed run of whitespace is a well-formed scalar row whose name strips to nothing. */
  lemma BlankHeaderName(spaces: string)
    requires |spaces| > 0 && AllSpace(spaces)
    ensures ParseSectionRow("[" + spaces + "]") == Some(Header("", false))
  {
    var b := "[" + spaces + "]";
    assert Anchored(b) == b;
    assert b[1..|b| - 1] == spaces;
    assert LeadingSpaces(spaces) == |spaces|;
  }
}

=== FILE: merge.dfy ===
/**
 * The merge engine (`_extend_section`): folds an imported tree into the
 * destination. Entries of the source overwrite those of the destination;
 * then the source's children are visited in insertion order: a name the
 * destination lacks is bound as it is, two scalar sections merge
 * recursively, two array sections concatenate, and a scalar meeting an
 * array stops the merge with an error. The merge is not atomic: whatever
 * was merged before the conflict stays merged.
 */
module Merge {
  import opened Basics
  import opened Tree

  datatype MergeError =
    | EntriesOutsideSection   // a file's children merged into a section
    | KindConflict(name: string)

  /** Merges section `s` into section `d`: the merged section and the first conflict, if any. */
  function MergeNode(d: Node, s: Node): (r: (Node, Option<MergeError>))
    ensures forall k :: k in r.0.entries <==> k in d.entries || k in s.entries
    ensures forall k :: k in s.entries ==> r.0.entries[k] == s.entries[k]
    ensures forall k :: k in d.entries && k !in s.entries ==> r.0.entries[k] == d.entries[k]
    decreases s
  {
    var (cs, err) := MergeBindings(d.children, s.children);
    (Node(cs, d.entries + s.entries), err)
  }

  /** Merges the source's children one binding at a time, stopping at the first conflict. */
  function MergeBindings(dst: Children, src: Children): (r: (Children, Option<MergeError>))
    ensures r.1.None? || r.1.value.KindConflict?
    decreases src
  {
    if |src| == 0 then (dst, None)
    else
      var (dst', err) := MergeOne(dst, src[0]);
      if err.Some? then (dst', err) else MergeBindings(dst', src[1..])
  }

  /** One iteration of the merge loop. */
  function MergeOne(dst: Children, b: Binding): (r: (Children, Option<MergeError>))
    ensures r.1.None? || r.1.value.KindConflict?
    decreases b
  {
    match Lookup(dst, b.name)
    case None => (Bind(dst, b.name, b.slot), None)
    case Some(Single(d)) =>
      if b.slot.Single? then
        var (m, err) := MergeNode(d, b.slot.node);
        (Bind(dst, b.name, Single(m)), err)
      else (dst, Some(KindConflict(b.name)))
    case Some(Many(ds)) =>
      if b.slot.Many? then (Bind(dst, b.name, Many(ds + b.slot.nodes)), None)
      else (dst, Some(KindConflict(b.name)))
  }

  /** Either side of the merge: the file, or one section. */
  datatype Scope = FileScope(sections: Children) | SectionScope(node: Node)

  function ChildrenOf(sc: Scope): Children {
    match sc
    case FileScope(cs) => cs
    case SectionScope(n) => n.children
  }

  /**
   * `_extend_section(dst, src)`. A section destination takes the source's
   * entries, which a file source does not have; a file destination has no
   * entries and ignores those of a section source.
   */
  function Extend(dst: Scope, src: Scope): (r: (Scope, Option<MergeError>))
    ensures dst.SectionScope? && src.FileScope? <==> r.1 == Some(EntriesOutsideSection)
    ensures dst.SectionScope? && src.FileScope? ==> r.0 == dst
    ensures r.0.FileScope? <==> dst.FileScope?
    ensures dst.SectionScope? && src.SectionScope? ==>
      var (m, err) := MergeNode(dst.node, src.node);
      && r == (SectionScope(m), err)
      && m.entries == dst.node.entries + src.node.entries
      && m.children == MergeBindings(dst.node.children, src.node.children).0
    ensures dst.FileScope? ==>
      var (cs, err) := MergeBindings(dst.sections, ChildrenOf(src));
      r == (FileScope(cs), err)
  {
    match (dst, src)
    case (SectionScope(d), FileScope(_)) => (dst, Some(EntriesOutsideSection))
    case (SectionScope(d), SectionScope(s)) =>
      var (m, err) := MergeNode(d, s);
      (SectionScope(m), err)
    case (FileScope(cs), _) =>
      var (cs', err) := MergeBindings(cs, ChildrenOf(src));
      (FileScope(cs'), err)
  }

  // ---------------------------------------------------------------------
  // The merge as a sequence of steps

  /**
   * Merging `a + b` is merging `a` and then, unless that hit a conflict,
   * merging `b` into the result: the merge is a left-to-right fold that
   * stops at the first conflict with everything before it applied.
   */
  lemma {:induction false} MergeBindingsAppend(dst: Children, a: Children, b: Children)
    ensures var (d1, e1) := MergeBindings(dst, a);
      MergeBindings(dst, a + b) == if e1.Some? then (d1, e1) else MergeBindings(d1, b)
    decreases a
  {
    if |a| > 0 {
      assert (a + b)[0] == a[0];
      assert (a + b)[1..] == a[1..] + b;
      var (dst', err) := MergeOne(dst, a[0]);
      if err.None? {
        MergeBindingsAppend(dst', a[1..], b);
      }
    } else {
      assert a + b == b;
    }
  }

  /**
   * A conflict does not undo what came before it: a new section merged
   * ahead of a clashing one stays bound.
   */
  lemma ConflictKeepsEarlierChanges(s: Node)
    ensures var dst := [Binding("x", Many([]))];
      MergeBindings(dst, [Binding("a", Single(s)), Binding("x", Single(s))])
        == (dst + [Binding("a", Single(s))], Some(KindConflict("x")))
  {
    var dst := [Binding("x", Many([]))];
    var src := [Binding("a", Single(s)), Binding("x", Single(s))];
    var dst' := dst + [Binding("a", Single(s))];
    assert Lookup(dst, "a").None?;
    assert MergeOne(dst, src[0]) == (dst', None);
    assert Lookup(dst', "x") == Some(Many([]));
    assert MergeOne(dst', src[1]) == (dst', Some(KindConflict("x")));
    assert MergeBindings(dst', src[1..]) == (dst', Some(KindConflict("x")));
  }

  // ---------------------------------------------------------------------
  // When the merge succeeds

  /** No name is bound twice at any level, as in the dictionaries of a parsed tree. */
  ghost predicate DeepDistinct(cs: Children)
    decreases cs
  {
    Distinct(cs) && forall i :: 0 <= i < |cs| ==> SlotDeepDistinct(cs[i].slot)
  }

  ghost predicate SlotDeepDistinct(s: Slot)
    decreases s
  {
    match s
    case Single(n) => DeepDistinct(n.children)
    case Many(ns) => forall j :: 0 <= j < |ns| ==> DeepDistinct(ns[j].children)
  }

  /** Every child of the source fits the destination binding of the same name: same kind, all the way down. */
  ghost predicate Compatible(dst: Children, src: Children)
    decreases src
  {
    |src| == 0 || (SlotCompatible(Lookup(dst, src[0].name), src[0].slot) && Compatible(dst, src[1..]))
  }

  ghost predicate SlotCompatible(d: Option<Slot>, s: Slot)
    decreases s
  {
    match d
    case None => true
    case Some(Single(dn)) => s.Single? && Compatible(dn.children, s.node.children)
    case Some(Many(_)) => s.Many?
  }

  /** The binding of the first element and of the rest of a list. */
  lemma LookupCons(cs: Children, m: string)
    requires |cs| > 0
    ensures Lookup(cs, m) == if cs[0].name == m then Some(cs[0].slot) else Lookup(cs[1..], m)
  {
  }

  /** Compatibility only depends on the destination's bindings of the source's names. */
  lemma {:induction false} CompatibleFrame(dst: Children, dst': Children, src: Children)
    requires forall i :: 0 <= i < |src| ==> Lookup(dst, src[i].name) == Lookup(dst', src[i].name)
    ensures Compatible(dst, src) == Compatible(dst', src)
    decreases src
  {
    if |src| > 0 {
      assert Lookup(dst, src[0].name) == Lookup(dst', src[0].name);
      CompatibleFrame(dst, dst', src[1..]);
    }
  }

  /** Names the source does not bind keep their destination binding, conflict or not. */
  lemma {:induction false} MergeBindingsFrame(dst: Children, src: Children, m: string)
    requires forall i :: 0 <= i < |src| ==> src[i].name != m
    ensures Lookup(MergeBindings(dst, src).0, m) == Lookup(dst, m)
    decreases src
  {
    if |src| > 0 {
      var (dst', err) := MergeOne(dst, src[0]);
      assert Lookup(dst', m) == Lookup(dst, m);
      if err.None? {
        MergeBindingsFrame(dst', src[1..], m);
      }
    }
  }

  /** A section merge succeeds exactly when the two trees agree on the kind of every shared name. */
  lemma {:induction false} MergeNodeSucceeds(d: Node, s: Node)
    requires DeepDistinct(s.children)
    ensures MergeNode(d, s).1.None? <==> Compatible(d.children, s.children)
    decreases s
  {
    MergeBindingsSucceeds(d.children, s.children);
  }

  /** A merge succeeds exactly when the two trees agree on the kind of every shared name. */
  lemma {:induction false} MergeBindingsSucceeds(dst: Children, src: Children)
    requires DeepDistinct(src)
    ensures MergeBindings(dst, src).1.None? <==> Compatible(dst, src)
    decreases src
  {
    if |src| > 0 {
      var b := src[0];
      var (dst', err) := MergeOne(dst, b);
      assert SlotDeepDistinct(b.slot);
      match Lookup(dst, b.name) {
        case None =>
        case Some(Single(dn)) =>
          if b.slot.Single? {
            MergeNodeSucceeds(dn, b.slot.node);
          }
        case Some(Many(_)) =>
      }
      assert err.None? <==> SlotCompatible(Lookup(dst, b.name), b.slot);
      if err.None? {
        var rest := src[1..];
        forall i | 0 <= i < |rest|
          ensures Lookup(dst, rest[i].name) == Lookup(dst', rest[i].name)
        {
          assert rest[i] == src[i + 1];
        }
        CompatibleFrame(dst, dst', rest);
        assert DeepDistinct(rest) by {
          forall i | 0 <= i < |rest|
            ensures SlotDeepDistinct(rest[i].slot)
          {
            assert rest[i] == src[i + 1];
          }
        }
        MergeBindingsSucceeds(dst', rest);
      }
    }
  }

  /** What a successful merge binds a name to, given its two original bindings. */
  function MergedSlot(d: Option<Slot>, s: Option<Slot>): Option<Slot>
  {
    match (d, s)
    case (_, None) => d
    case (None, Some(_)) => s
    case (Some(Single(dn)), Some(Single(sn))) => Some(Single(MergeNode(dn, sn).0))
    case (Some(Many(ds)), Some(Many(ss))) => Some(Many(ds + ss))
    case _ => d
  }

  /**
   * After a successful merge every name is bound as `MergedSlot` says:
   * untouched when only the destination has it, the source's binding when
   * only the source has it, the recursive merge of two sections, and the
   * destination's array followed by the source's.
   */
  lemma {:induction false} MergeBindingsLookup(dst: Children, src: Children, m: string)
    requires Distinct(src)
    requires MergeBindings(dst, src).1.None?
    ensures Lookup(MergeBindings(dst, src).0, m) == MergedSlot(Lookup(dst, m), Lookup(src, m))
    decreases src
  {
    if |src| > 0 {
      var b := src[0];
      var dst' := MergeOne(dst, b).0;
      MergeBindingsCons(dst, src);
      LookupCons(src, m);
      DistinctTail(src);
      MergeOneLookup(dst, b, m);
      if b.name == m {
        MergeBindingsFrame(dst', src[1..], m);
      } else {
        MergeBindingsLookup(dst', src[1..], m);
      }
    }
  }

  /** The bindings after the first of a duplicate-free list are duplicate-free and do not repeat the first name. */
  lemma DistinctTail(src: Children)
    requires Distinct(src) && |src| > 0
    ensures Distinct(src[1..])
    ensures forall i :: 0 <= i < |src| - 1 ==> src[1..][i].name != src[0].name
  {
    forall i, j | 0 <= i < j < |src| - 1
      ensures src[1..][i].name != src[1..][j].name
    {
      assert src[1..][i] == src[i + 1] && src[1..][j] == src[j + 1];
    }
    forall i | 0 <= i < |src| - 1
      ensures src[1..][i].name != src[0].name
    {
      assert src[1..][i] == src[i + 1];
    }
  }

  /** A merge without conflict is the first step followed by the merge of the rest. */
  lemma MergeBindingsCons(dst: Children, src: Children)
    requires |src| > 0 && MergeBindings(dst, src).1.None?
    ensures MergeOne(dst, src[0]).1.None?
    ensures MergeBindings(dst, src) == MergeBindings(MergeOne(dst, src[0]).0, src[1..])
  {
  }

  /** One step without conflict binds its name as `MergedSlot` says and leaves the other names alone. */
  lemma MergeOneLookup(dst: Children, b: Binding, m: string)
    requires MergeOne(dst, b).1.None?
    ensures Lookup(MergeOne(dst, b).0, m)
      == if b.name == m then MergedSlot(Lookup(dst, m), Some(b.slot)) else Lookup(dst, m)
  {
  }

  /** Two array sections merge into the destination's elements followed by the source's. */
  lemma ArraysConcatenate(dst: Children, src: Children, name: string, ds: seq<Node>, ss: seq<Node>)
    requires Distinct(src)
    requires Lookup(dst, name) == Some(Many(ds)) && Lookup(src, name) == Some(Many(ss))
    requires MergeBindings(dst, src).1.None?
    ensures Lookup(MergeBindings(dst, src).0, name) == Some(Many(ds + ss))
  {
    MergeBindingsLookup(dst, src, name);
  }

  // ---------------------------------------------------------------------
  // The merge keeps every existing section

  /** Every section of the destination is still reachable by the same path after a section merge. */
  lemma {:induction false} MergeNodeKeeps(d: Node, s: Node)
    ensures Keeps(d.children, MergeNode(d, s).0.children)
    decreases s
  {
    MergeBindingsKeeps(d.children, s.children);
  }

  /** Every section of the destination is still reachable by the same path after a merge, conflict or not. */
  lemma {:induction false} MergeBindingsKeeps(dst: Children, src: Children)
    ensures Keeps(dst, MergeBindings(dst, src).0)
    decreases src
  {
    if |src| == 0 {
      KeepsReflexive(dst);
    } else {
      var b := src[0];
      var (dst', err) := MergeOne(dst, b);
      match Lookup(dst, b.name) {
        case None =>
          BindKeeps(dst, b.name, b.slot);
        case Some(Single(dn)) =>
          if b.slot.Single? {
            var m := MergeNode(dn, b.slot.node).0;
            MergeNodeKeeps(dn, b.slot.node);
            SingleKeeps(dn, m);
            BindKeeps(dst, b.name, Single(m));
          } else {
            KeepsReflexive(dst);
          }
        case Some(Many(ds)) =>
          if b.slot.Many? {
            AppendKeeps(ds, b.slot.nodes);
            BindKeeps(dst, b.name, Many(ds + b.slot.nodes));
          } else {
            KeepsReflexive(dst);
          }
      }
      assert Keeps(dst, dst');
      if err.None? {
        MergeBindingsKeeps(dst', src[1..]);
        KeepsTransitive(dst, dst', MergeBindings(dst', src[1..]).0);
      }
    }
  }
}

=== FILE: parser.dfy ===
/**
 * The line-driven parser (`parse`). The contents are split on newlines and
 * each line, numbered from 1, is handled by the first rule that applies to it
 * once stripped:
 *   - blank lines and lines starting with `;;` are skipped;
 *   - `@import target` merges the imported file into the one being built;
 *   - `@insert` is an error outside a section and unimplemented inside one;
 *   - a line starting with `[` is a section header;
 *   - anything else must be `key = value`, `key := value`, or a
 *     continuation `= value` / `:= value` of the current key.
 * A line that fails records an error and parsing goes on with the next line.
 *
 * The parser keeps the current section as a path and the current key. The
 * result of parsing an imported file comes from an oracle: the file search,
 * the reading and the nested parse are outside this model. The environment
 * is a parameter.
 */
module Parser {
  import opened Basics
  import opened Text
  import opened Tree
  import opened Header
  import opened Value
  import opened Resolver
  import opened Merge

  /** The message of a recorded error. */
  datatype Message =
    | Unparsable                           // "unable to parse"
    | ResolveFailed(resolveError: ResolveError)  // the header's section could not be added
    | ValueFailed(valueError: ValueError)      // the value names an unset variable
    | ImportFailed                         // "Got errors when importing file"
    | FileNotFound(target: string)         // "Unable to find file ..."
    | MergeFailed(mergeError: MergeError)      // the imported file did not merge
    | InsertOutsideSection
    | EntryOutsideSection                  // "Cannot have key/value outside a section"
    | MissingKey                           // "Please specify a key"

  /** `SrcfgParseError`: a line number (from 1), the raw line, the message and the imported file's own errors. */
  datatype ParseError = ParseError(lineNb: nat, line: string, message: Message, inner: seq<ParseError>)

  /** What parsing an imported file gave: its sections and errors, or an exception. */
  datatype Imported = Loaded(sections: Children, errors: seq<ParseError>) | Raised

  /** The import oracle: a target the file search does not find has no entry. */
  type Imports = map<string, Imported>

  /** The result of a parse: the file and its errors, or an exception that ended it. */
  datatype Outcome = Parsed(file: Children, errors: seq<ParseError>) | Aborted

  /** The parser's variables between two lines. */
  datatype State = State(file: Children, errors: seq<ParseError>, section: Option<Path>, key: Option<string>)

  /** The state after a line, or the `NotImplementedError` of `@insert` inside a section. */
  datatype Next = Next(st: State) | Abort

  const Start: State := State([], [], None, None)

  /**
   * The current section exists in the file, and the current key is a
   * non-empty name of one of its entries.
   */
  predicate ValidState(st: State) {
    && (st.section.Some? ==> Get(st.file, st.section.value).Some?)
    && (st.key.Some? ==>
          && st.section.Some?
          && |st.key.value| > 0
          && st.key.value in Get(st.file, st.section.value).value.entries)
  }

  /**
   * How one line may move the parser: the new state is valid, every section
   * is still there, and the errors only grow, by at most two, each at this line.
   */
  ghost predicate Advances(st: State, st': State, lineNb: nat, l: string) {
    && ValidState(st')
    && Keeps(st.file, st'.file)
    && st.errors <= st'.errors
    && |st'.errors| <= |st.errors| + 2
    && forall i :: |st.errors| <= i < |st'.errors| ==> st'.errors[i].lineNb == lineNb && st'.errors[i].line == l
  }

  function AddError(st: State, lineNb: nat, l: string, m: Message): State {
    st.(errors := st.errors + [ParseError(lineNb, l, m, [])])
  }

  /** Recording an error at this line is a move the parser may make. */
  lemma AddErrorAdvances(st: State, lineNb: nat, l: string, m: Message)
    requires ValidState(st)
    ensures Advances(st, AddError(st, lineNb, l, m), lineNb, l)
  {
    KeepsReflexive(st.file);
  }

  // ---------------------------------------------------------------------
  // Key/value rows

  /** `[a-zA-Z0-9_-]` */
  predicate IsKeyChar(c: char) {
    IsAsciiAlnum(c) || c == '_' || c == '-'
  }

  predicate AllKeyChars(s: string) {
    forall i :: 0 <= i < |s| ==> IsKeyChar(s[i])
  }

  /** Length of the run of key characters at the start of `s`. */
  function KeyRun(s: string): (k: nat)
    ensures k <= |s| && AllKeyChars(s[..k])
    ensures k < |s| ==> !IsKeyChar(s[k])
  {
    if |s| == 0 || !IsKeyChar(s[0]) then 0
    else
      var k := 1 + KeyRun(s[1..]);
      assert s[..k] == [s[0]] + s[1..][..k - 1];
      k
  }

  lemma {:induction false} KeyRunAppend(x: string, y: string)
    requires AllKeyChars(x)
    ensures KeyRun(x + y) == |x| + KeyRun(y)
    decreases |x|
  {
    if |x| > 0 {
      assert (x + y)[1..] == x[1..] + y;
      KeyRunAppend(x[1..], y);
    } else {
      assert x + y == y;
    }
  }

  /** `=` interprets the value; `:=` keeps it verbatim. */
  datatype Op = Plain | Raw

  function OpText(op: Op): string {
    match op
    case Plain => "="
    case Raw => ":="
  }

  datatype KeyValue = KeyValue(key: string, op: Op, rest: string)

  /**
   * The row cut into leading whitespace, the longest run of key characters,
   * whitespace, and what follows: the only way `^\s*([a-zA-Z0-9_-]*)\s*` can
   * match, as the three parts use disjoint characters.
   */
  function RowPieces(l: string): (r: (string, string, string, string))
    ensures AllSpace(r.0) && AllKeyChars(r.1) && AllSpace(r.2)
    ensures l == r.0 + r.1 + r.2 + r.3
  {
    var first := SpacesFirst(l);
    var second := KeyFirst(first.1);
    var third := SpacesFirst(second.1);
    Concat4(l, first.0, first.1, second.0, second.1, third.0, third.1);
    (first.0, second.0, third.0, third.1)
  }

  lemma Concat4(l: string, a: string, t: string, key: string, u: string, b: string, w: string)
    requires l == a + t && t == key + u && u == b + w
    ensures l == a + key + b + w
  {
  }

  /** The whitespace at the start of `s`, and the rest. */
  function SpacesFirst(s: string): (r: (string, string))
    ensures AllSpace(r.0) && s == r.0 + r.1
  {
    var i := LeadingSpaces(s);
    assert s == s[..i] + s[i..];
    (s[..i], s[i..])
  }

  /** The key characters at the start of `s`, and the rest. */
  function KeyFirst(s: string): (r: (string, string))
    ensures AllKeyChars(r.0) && s == r.0 + r.1
  {
    var k := KeyRun(s);
    assert s == s[..k] + s[k..];
    (s[..k], s[k..])
  }

  /** `l` is leading whitespace, `key`, whitespace, the operator and `rest`. */
  predicate IsRow(l: string, a: string, key: string, b: string, op: Op, rest: string) {
    AllSpace(a) && AllKeyChars(key) && AllSpace(b) && l == a + key + b + OpText(op) + rest
  }

  /**
   * The row pattern `^\s*([a-zA-Z0-9_-]*)\s*(:?=)(.*)$` on a raw line: the
   * key (possibly empty), the operator, and everything after the operator.
   */
  function ParseKeyValue(l: string): (r: Option<KeyValue>)
    requires '\n' !in l
    ensures r.Some? ==> exists a: string, b: string :: IsRow(l, a, r.value.key, b, r.value.op, r.value.rest)
  {
    var pieces := RowPieces(l);
    match SplitOp(pieces.3)
    case None => None
    case Some((op, rest)) =>
      RowOf(l, pieces, op, rest);
      Some(KeyValue(pieces.1, op, rest))
  }

  /** `(:?=)(.*)`: the operator at the start of `w`, and the text after it. */
  function SplitOp(w: string): (r: Option<(Op, string)>)
    ensures r.Some? ==> w == OpText(r.value.0) + r.value.1
    ensures r.None? <==> !("=" <= w) && !(":=" <= w)
  {
    if ":=" <= w then
      assert w == ":=" + w[2..];
      Some((Raw, w[2..]))
    else if "=" <= w then
      assert w == "=" + w[1..];
      Some((Plain, w[1..]))
    else
      None
  }

  lemma RowOf(l: string, pieces: (string, string, string, string), op: Op, rest: string)
    requires pieces == RowPieces(l) && pieces.3 == OpText(op) + rest
    ensures IsRow(l, pieces.0, pieces.1, pieces.2, op, rest)
  {
    var (a, key, b, w) := pieces;
    assert l == a + key + b + w;
  }

  lemma SpacesFirstAppend(x: string, y: string)
    requires AllSpace(x) && (|y| == 0 || !IsSpace(y[0]))
    ensures SpacesFirst(x + y) == (x, y)
  {
    LeadingSpacesAppend(x, y);
    assert (x + y)[..|x|] == x && (x + y)[|x|..] == y;
  }

  lemma KeyFirstAppend(x: string, y: string)
    requires AllKeyChars(x) && (|y| == 0 || !IsKeyChar(y[0]))
    ensures KeyFirst(x + y) == (x, y)
  {
    KeyRunAppend(x, y);
    assert (x + y)[..|x|] == x && (x + y)[|x|..] == y;
  }

  /** Two whitespace runs make one. */
  lemma AllSpaceConcat(a: string, b: string)
    requires AllSpace(a) && AllSpace(b)
    ensures AllSpace(a + b)
  {
    forall i | 0 <= i < |a + b|
      ensures IsSpace((a + b)[i])
    {
      if i >= |a| {
        assert (a + b)[i] == b[i - |a|];
      }
    }
  }

  /** The pieces of a row whose text after the second whitespace run starts with neither. */
  lemma RowPiecesOf(l: string, a: string, key: string, b: string, w: string)
    requires AllSpace(a) && AllKeyChars(key) && AllSpace(b) && l == a + key + b + w
    requires |w| > 0 && !IsSpace(w[0]) && !IsKeyChar(w[0])
    ensures RowPieces(l).1 == key && RowPieces(l).3 == w
  {
    if |key| > 0 {
      assert l == a + (key + (b + w));
      SpacesFirstAppend(a, key + (b + w));
      KeyFirstAppend(key, b + w);
      SpacesFirstAppend(b, w);
    } else {
      assert l == (a + b) + w;
      AllSpaceConcat(a, b);
      SpacesFirstAppend(a + b, w);
      KeyFirstAppend("", w);
      SpacesFirstAppend("", w);
      assert "" + w == w;
    }
  }

  /** The operator text followed by the value text splits back into the two. */
  lemma SplitOpOf(op: Op, rest: string)
    ensures SplitOp(OpText(op) + rest) == Some((op, rest))
  {
    var w := OpText(op) + rest;
    match op {
      case Raw =>
        assert w[2..] == rest;
      case Plain =>
        assert !(":=" <= w) by {
          assert w[0] == '=';
        }
        assert w[1..] == rest;
    }
  }

  /** Every row the pattern describes parses to its key, operator and rest. */
  lemma KeyValueParses(l: string, a: string, key: string, b: string, op: Op, rest: string)
    requires IsRow(l, a, key, b, op, rest) && '\n' !in l
    ensures ParseKeyValue(l) == Some(KeyValue(key, op, rest))
  {
    var w := OpText(op) + rest;
    assert !IsSpace(w[0]) && !IsKeyChar(w[0]);
    assert l == a + key + b + w;
    RowPiecesOf(l, a, key, b, w);
    SplitOpOf(op, rest);
  }

  /** The value a row stores: `_parse_value` of the stripped text after `=`, the text after `:=` as it is. */
  function EntryValue(kv: KeyValue, env: map<string, string>): (r: Result<string, ValueError>)
    ensures kv.op == Raw ==> r == Ok(kv.rest)
    ensures kv.op == Plain ==> r == ParseValue(Strip(kv.rest), env)
  {
    match kv.op
    case Raw => Ok(kv.rest)
    case Plain => ParseValue(Strip(kv.rest), env)
  }

  // ---------------------------------------------------------------------
  // One line

  /** `@import target`: extends the file with the imported one, recording its errors and a merge conflict. */
  function ImportLine(st: State, lineNb: nat, l: string, target: string, imports: Imports): (r: Next)
    requires ValidState(st)
    ensures r.Abort? <==> target in imports && imports[target].Raised?
    ensures r.Next? ==> Advances(st, r.st, lineNb, l)
    ensures r.Next? ==> r.st.section == st.section && r.st.key.None?
    ensures r.Next? && target !in imports ==> r.st.file == st.file && |r.st.errors| == |st.errors| + 1
    ensures target in imports && imports[target].Loaded? ==>
      var cs := imports[target].sections;
      var errs := imports[target].errors;
      var merged := MergeBindings(st.file, cs);
      && r.Next?
      && r.st.file == merged.0
      && st.errors <= r.st.errors
      && |r.st.errors| == |st.errors| + (if errs != [] then 1 else 0) + (if merged.1.Some? then 1 else 0)
      && (errs != [] ==> r.st.errors[|st.errors|] == ParseError(lineNb, l, ImportFailed, errs))
      && (merged.1.Some? ==>
            r.st.errors[|r.st.errors| - 1] == ParseError(lineNb, l, MergeFailed(merged.1.value), []))
  {
    if target !in imports then
      var e := ParseError(lineNb, l, ImportFailed, [ParseError(0, "", FileNotFound(target), [])]);
      Next(State(st.file, st.errors + [e], st.section, None))
    else
      match imports[target]
      case Raised => Abort
      case Loaded(cs, errs) =>
        var (into, err) := Extend(FileScope(st.file), FileScope(cs));
        var file' := into.sections;
        MergeBindingsKeeps(st.file, cs);
        var e1 := if |errs| > 0 then [ParseError(lineNb, l, ImportFailed, errs)] else [];
        var e2 := if err.Some? then [ParseError(lineNb, l, MergeFailed(err.value), [])] else [];
        Next(State(file', st.errors + e1 + e2, st.section, None))
  }

  /** A header row: the stripped line `s` names a section to find or create and make current. */
  function HeaderLine(st: State, lineNb: nat, l: string, s: string): (r: State)
    requires ValidState(st)
    ensures Advances(st, r, lineNb, l) && r.key.None?
    ensures |r.errors| <= |st.errors| + 1
    ensures r.errors == st.errors ==> r.section.Some?
    ensures r.errors != st.errors ==> r.section == st.section
    ensures ParseSectionRow(s).None? || |ParseSectionRow(s).value.name| == 0 ==>
      r == AddError(st.(key := None), lineNb, l, Unparsable)
    ensures ParseSectionRow(s).Some? && |ParseSectionRow(s).value.name| > 0 ==>
      var h := ParseSectionRow(s).value;
      var (file', res) := AddSection(st.file, h.name, st.section, h.isArray);
      && r.file == file'
      && (res.Ok? ==> r == State(file', st.errors, Some(res.value), None))
      && (res.Err? ==> r == AddError(State(file', st.errors, st.section, None), lineNb, l, ResolveFailed(res.error)))
  {
    var st1 := st.(key := None);
    match ParseSectionRow(s)
    case None => AddError(st1, lineNb, l, Unparsable)
    case Some(h) =>
      if |h.name| == 0 then AddError(st1, lineNb, l, Unparsable)
      else
        var (file', res) := AddSection(st.file, h.name, st.section, h.isArray);
        AddSectionKeeps(st.file, h.name, st.section, h.isArray);
        match res
        case Err(e) => AddError(st1.(file := file'), lineNb, l, ResolveFailed(e))
        case Ok(p) => State(file', st.errors, Some(p), None)
  }

  /** A key/value row or a continuation row, in the current section. */
  function EntryLine(st: State, lineNb: nat, l: string, env: map<string, string>): (r: State)
    requires ValidState(st) && '\n' !in l
    ensures Advances(st, r, lineNb, l)
    ensures r.section == st.section
    ensures |r.errors| <= |st.errors| + 1
    ensures st.section.None? ==> r == AddError(st, lineNb, l, EntryOutsideSection)
    ensures st.section.Some? && ParseKeyValue(l).None? ==> r == AddError(st, lineNb, l, Unparsable)
  {
    if st.section.None? then
      AddErrorAdvances(st, lineNb, l, EntryOutsideSection);
      AddError(st, lineNb, l, EntryOutsideSection)
    else
      match ParseKeyValue(l)
      case None =>
        AddErrorAdvances(st, lineNb, l, Unparsable);
        AddError(st, lineNb, l, Unparsable)
      case Some(kv) =>
        match EntryValue(kv, env)
        case Err(e) =>
          AddErrorAdvances(st, lineNb, l, ValueFailed(e));
          AddError(st, lineNb, l, ValueFailed(e))
        case Ok(v) =>
          var key := if |kv.key| > 0 then Some(kv.key) else st.key;
          if key.None? then
            AddErrorAdvances(st, lineNb, l, MissingKey);
            AddError(st, lineNb, l, MissingKey)
          else StoreEntry(st, key.value, v, |kv.key| == 0)
  }

  /**
   * The entry `k` of the current section after a row: the value appended
   * after a newline when the row continues an existing entry, the value
   * itself otherwise. The key becomes current; nothing else changes.
   */
  function StoreEntry(st: State, k: string, v: string, continues: bool): (r: State)
    requires ValidState(st) && st.section.Some? && |k| > 0
    ensures ValidState(r) && Keeps(st.file, r.file)
    ensures r.errors == st.errors && r.section == st.section && r.key == Some(k)
    ensures var old_ := Get(st.file, st.section.value).value.entries;
      var new_ := Get(r.file, st.section.value).value.entries;
      && new_.Keys == old_.Keys + {k}
      && new_[k] == (if continues && k in old_ then old_[k] + "\n" + v else v)
      && forall k' :: k' in old_ && k' != k ==> new_[k'] == old_[k']
    ensures forall q: Path :: q != st.section.value ==>
      && (Get(r.file, q).Some? <==> Get(st.file, q).Some?)
      && (Get(st.file, q).Some? ==> Get(r.file, q).value.entries == Get(st.file, q).value.entries)
  {
    var p := st.section.value;
    var n := Get(st.file, p).value;
    var entries :=
      if continues && k in n.entries then n.entries[k := n.entries[k] + "\n" + v]
      else n.entries[k := v];
    SetEntriesKeeps(st.file, p, entries);
    forall q: Path | q != p
      ensures Get(Modify(st.file, p, n.(entries := entries)), q).Some? <==> Get(st.file, q).Some?
      ensures Get(st.file, q).Some? ==>
        Get(Modify(st.file, p, n.(entries := entries)), q).value.entries == Get(st.file, q).value.entries
    {
      ModifyEntriesFrame(st.file, p, entries, q);
    }
    State(Modify(st.file, p, n.(entries := entries)), st.errors, st.section, Some(k))
  }

  /** One line of the file, by the first rule that applies to its stripped text. */
  function StepLine(st: State, lineNb: nat, l: string, env: map<string, string>, imports: Imports): (r: Next)
    requires ValidState(st) && '\n' !in l
    ensures r.Next? ==> Advances(st, r.st, lineNb, l)
    ensures r.Abort? ==> "@import" <= Strip(l) || ("@insert" <= Strip(l) && st.section.Some?)
  {
    var s := Strip(l);
    if |s| == 0 || ";;" <= s then Next(st)
    else if "@import" <= s then ImportLine(st, lineNb, l, Strip(s[7..]), imports)
    else if "@insert" <= s then
      if st.section.None? then Next(AddError(st.(key := None), lineNb, l, InsertOutsideSection))
      else Abort
    else if "[" <= s then Next(HeaderLine(st, lineNb, l, s))
    else Next(EntryLine(st, lineNb, l, env))
  }

  // ---------------------------------------------------------------------
  // The whole file

  /** The lines from `lineNb` on, in order, stopping at an exception. */
  function Run(st: State, lines: seq<string>, lineNb: nat, env: map<string, string>, imports: Imports): (r: Outcome)
    requires ValidState(st)
    requires forall i :: 0 <= i < |lines| ==> '\n' !in lines[i]
    ensures r.Parsed? ==> Keeps(st.file, r.file) && st.errors <= r.errors
    ensures r.Parsed? ==> forall i :: |st.errors| <= i < |r.errors| ==> lineNb <= r.errors[i].lineNb < lineNb + |lines|
    decreases |lines|
  {
    if |lines| == 0 then Parsed(st.file, st.errors)
    else
      match StepLine(st, lineNb, lines[0], env, imports)
      case Abort => Aborted
      case Next(st') =>
        var r := Run(st', lines[1..], lineNb + 1, env, imports);
        assert forall i :: 0 <= i < |lines| - 1 ==> lines[1..][i] == lines[i + 1];
        r
  }

  /**
   * `step` applied to each line in turn, numbered from `lineNb`, from the
   * state the previous line left; the first step that raises ends the fold.
   */
  function Fold(step: (State, nat, string) -> Next, st: State, lines: seq<string>, lineNb: nat): (r: Next)
    ensures |lines| == 0 ==> r == Next(st)
    ensures |lines| == 1 ==> r == step(st, lineNb, lines[0])
    decreases |lines|
  {
    if |lines| == 0 then Next(st)
    else
      match step(st, lineNb, lines[0])
      case Abort => Abort
      case Next(st') => Fold(step, st', lines[1..], lineNb + 1)
  }

  /** Folding over `a + b` folds over `a` and then, unless a step raised, over `b`, numbered after `a`. */
  lemma {:induction false} FoldAppend(step: (State, nat, string) -> Next, st: State, a: seq<string>, b: seq<string>, lineNb: nat)
    ensures Fold(step, st, a + b, lineNb)
      == match Fold(step, st, a, lineNb)
         case Abort => Abort
         case Next(s) => Fold(step, s, b, lineNb + |a|)
    decreases |a|
  {
    if |a| == 0 {
      assert a + b == b;
    } else {
      assert (a + b)[0] == a[0] && (a + b)[1..] == a[1..] + b;
      match step(st, lineNb, a[0])
      case Abort =>
      case Next(s) =>
        FoldAppend(step, s, a[1..], b, lineNb + 1);
    }
  }

  /** Lines as splitting on newlines gives them: none holds a newline. */
  predicate Lines(ls: seq<string>) {
    forall i :: 0 <= i < |ls| ==> '\n' !in ls[i]
  }

  lemma LinesAppend(a: seq<string>, b: seq<string>)
    requires Lines(a) && Lines(b)
    ensures Lines(a + b)
  {
    assert forall i :: 0 <= i < |a + b| ==> (a + b)[i] == if i < |a| then a[i] else b[i - |a|];
  }

  lemma LinesTail(a: seq<string>)
    requires Lines(a) && |a| > 0
    ensures Lines(a[1..]) && '\n' !in a[0]
  {
    assert forall i :: 0 <= i < |a| - 1 ==> a[1..][i] == a[i + 1];
  }

  /**
   * The line rule as a step of the fold. The parser only ever holds valid
   * states and newline-free lines; anything else cannot arise and ends the fold.
   */
  function Stepper(env: map<string, string>, imports: Imports): (State, nat, string) -> Next {
    (st: State, lineNb: nat, l: string) =>
      if ValidState(st) && '\n' !in l then StepLine(st, lineNb, l, env, imports) else Abort
  }

  /** On a state and line the parser can hold, the fold's step is the line rule. */
  lemma StepperIsStepLine(st: State, lineNb: nat, l: string, env: map<string, string>, imports: Imports)
    requires ValidState(st) && '\n' !in l
    ensures Stepper(env, imports)(st, lineNb, l) == StepLine(st, lineNb, l, env, imports)
  {
  }

  /** Each state the fold of the line rule reaches is valid, and the errors only grow. */
  lemma {:induction false} RunStateValid(st: State, lines: seq<string>, lineNb: nat, env: map<string, string>, imports: Imports)
    requires ValidState(st) && Lines(lines)
    ensures var r := Fold(Stepper(env, imports), st, lines, lineNb);
      r.Next? ==> ValidState(r.st) && st.errors <= r.st.errors
    decreases |lines|
  {
    if |lines| > 0 {
      LinesTail(lines);
      StepperIsStepLine(st, lineNb, lines[0], env, imports);
      match StepLine(st, lineNb, lines[0], env, imports)
      case Abort =>
      case Next(st') =>
        RunStateValid(st', lines[1..], lineNb + 1, env, imports);
    }
  }

  /**
   * The parser's state after a run of lines, or the end of the parse if one
   * of them raised. Lines that record errors do not stop the run.
   */
  function RunState(st: State, lines: seq<string>, lineNb: nat, env: map<string, string>, imports: Imports): (r: Next)
    requires ValidState(st) && Lines(lines)
    ensures r.Next? ==> ValidState(r.st) && st.errors <= r.st.errors
    ensures |lines| == 0 ==> r == Next(st)
    ensures |lines| == 1 ==> r == StepLine(st, lineNb, lines[0], env, imports)
  {
    RunStateValid(st, lines, lineNb, env, imports);
    Fold(Stepper(env, imports), st, lines, lineNb)
  }

  /** A run of `[l] + rest` is the step on `l` followed by a run of `rest`. */
  lemma RunStateCons(st: State, l: string, rest: seq<string>, lineNb: nat, env: map<string, string>, imports: Imports)
    requires ValidState(st) && '\n' !in l && Lines(rest)
    ensures Lines([l] + rest)
    ensures RunState(st, [l] + rest, lineNb, env, imports)
      == match StepLine(st, lineNb, l, env, imports)
         case Abort => Abort
         case Next(s) => RunState(s, rest, lineNb + 1, env, imports)
  {
    LinesAppend([l], rest);
    assert ([l] + rest)[0] == l && ([l] + rest)[1..] == rest;
    StepperIsStepLine(st, lineNb, l, env, imports);
  }

  /** A whole run ends as the state-returning run does: with its file and errors, or aborted. */
  lemma {:induction false} RunIsRunState(st: State, lines: seq<string>, lineNb: nat, env: map<string, string>, imports: Imports)
    requires ValidState(st) && Lines(lines)
    ensures Run(st, lines, lineNb, env, imports)
      == match RunState(st, lines, lineNb, env, imports)
         case Abort => Aborted
         case Next(s) => Parsed(s.file, s.errors)
    decreases |lines|
  {
    if |lines| > 0 {
      LinesTail(lines);
      assert lines == [lines[0]] + lines[1..];
      RunStateCons(st, lines[0], lines[1..], lineNb, env, imports);
      match StepLine(st, lineNb, lines[0], env, imports)
      case Abort =>
      case Next(st') =>
        RunIsRunState(st', lines[1..], lineNb + 1, env, imports);
    }
  }

  /**
   * Running `a + b` runs `a` and then, unless `a` raised, runs `b` from
   * whatever state `a` left, errors included, numbering `b` after `a`.
   */
  lemma RunStateAppend(st: State, a: seq<string>, b: seq<string>, lineNb: nat,
                       env: map<string, string>, imports: Imports)
    requires ValidState(st) && Lines(a) && Lines(b)
    ensures Lines(a + b)
    ensures RunState(st, a + b, lineNb, env, imports)
      == match RunState(st, a, lineNb, env, imports)
         case Abort => Abort
         case Next(s) => RunState(s, b, lineNb + |a|, env, imports)
  {
    LinesAppend(a, b);
    FoldAppend(Stepper(env, imports), st, a, b, lineNb);
  }

  /**
   * A line that records an error does not end the parse: the run goes on
   * with the next line from the state that line left.
   */
  lemma ErrorLineContinues(st: State, l: string, rest: seq<string>, lineNb: nat,
                           env: map<string, string>, imports: Imports)
    requires ValidState(st) && '\n' !in l && Lines(rest)
    requires StepLine(st, lineNb, l, env, imports).Next?
    ensures Lines([l] + rest)
    ensures var s := StepLine(st, lineNb, l, env, imports).st;
      Run(st, [l] + rest, lineNb, env, imports) == Run(s, rest, lineNb + 1, env, imports)
  {
    var s := StepLine(st, lineNb, l, env, imports).st;
    RunStateCons(st, l, rest, lineNb, env, imports);
    RunIsRunState(st, [l] + rest, lineNb, env, imports);
    RunIsRunState(s, rest, lineNb + 1, env, imports);
  }

  /** `parse(contents, cwd)`: every error carries the number of a line of the contents. */
  function Parse(contents: string, env: map<string, string>, imports: Imports): (r: Outcome)
    ensures r.Parsed? ==> forall i :: 0 <= i < |r.errors| ==> 1 <= r.errors[i].lineNb <= |Split(contents, '\n')|
  {
    Run(Start, Split(contents, '\n'), 1, env, imports)
  }

  /** Parsing newline-free lines joined with newlines runs exactly those lines, from line 1. */
  lemma ParseIsRun(ls: seq<string>, env: map<string, string>, imports: Imports)
    requires |ls| >= 1 && Lines(ls)
    ensures Parse(Join(ls, '\n'), env, imports) == Run(Start, ls, 1, env, imports)
  {
    SplitJoin(ls, '\n');
  }

  // ---------------------------------------------------------------------
  // Properties of single lines

  /** Blank lines and comment lines change nothing, not even the current key. */
  lemma SkippedLines(st: State, lineNb: nat, l: string, env: map<string, string>, imports: Imports)
    requires ValidState(st) && '\n' !in l
    requires |Strip(l)| == 0 || ";;" <= Strip(l)
    ensures StepLine(st, lineNb, l, env, imports) == Next(st)
  {
  }

  /** `@import`, `@insert` and headers end the current key, so no continuation row can follow them. */
  lemma DirectivesClearKey(st: State, lineNb: nat, l: string, env: map<string, string>, imports: Imports)
    requires ValidState(st) && '\n' !in l
    requires "@import" <= Strip(l) || "@insert" <= Strip(l) || "[" <= Strip(l)
    ensures var r := StepLine(st, lineNb, l, env, imports);
      r.Next? ==> r.st.key.None?
  {
  }

  /**
   * `@insert` is only an error outside a section; inside one it raises and
   * ends the parse.
   */
  lemma InsertLine(st: State, lineNb: nat, l: string, env: map<string, string>, imports: Imports)
    requires ValidState(st) && '\n' !in l
    requires "@insert" <= Strip(l)
    ensures st.section.Some? ==> StepLine(st, lineNb, l, env, imports) == Abort
    ensures st.section.None? ==>
      StepLine(st, lineNb, l, env, imports) == Next(AddError(st.(key := None), lineNb, l, InsertOutsideSection))
  {
    assert !("@import" <= Strip(l)) by {
      assert Strip(l)[2] == 'n';
    }
  }

  /**
   * An `@import` of a target the search does not find records one error and
   * changes no section; a target whose parse raised ends this parse too.
   */
  lemma ImportTargets(st: State, lineNb: nat, l: string, env: map<string, string>, imports: Imports)
    requires ValidState(st) && '\n' !in l
    requires "@import" <= Strip(l)
    ensures var target := Strip(Strip(l)[7..]);
      var r := StepLine(st, lineNb, l, env, imports);
      && (target !in imports ==> r == Next(State(st.file,
            st.errors + [ParseError(lineNb, l, ImportFailed, [ParseError(0, "", FileNotFound(target), [])])],
            st.section, None)))
      && (target in imports && imports[target].Raised? ==> r == Abort)
  {
  }

  /**
   * An `@import` whose file parsed cleanly and merges without conflict
   * leaves the merged tree, no new error, and the same current section.
   */
  lemma ImportMerges(st: State, lineNb: nat, l: string, env: map<string, string>, imports: Imports, cs: Children)
    requires ValidState(st) && '\n' !in l
    requires "@import" <= Strip(l)
    requires Strip(Strip(l)[7..]) in imports
    requires imports[Strip(Strip(l)[7..])] == Loaded(cs, [])
    requires MergeBindings(st.file, cs).1.None?
    ensures StepLine(st, lineNb, l, env, imports)
      == Next(State(MergeBindings(st.file, cs).0, st.errors, st.section, None))
  {
  }

  /**
   * A header that is not `[name]` or `[[name]]`, or whose name strips to
   * nothing, records an error and keeps the current section and the tree.
   */
  lemma MalformedHeader(st: State, lineNb: nat, l: string, env: map<string, string>, imports: Imports)
    requires ValidState(st) && '\n' !in l
    requires "[" <= Strip(l)
    requires ParseSectionRow(Strip(l)).None? || ParseSectionRow(Strip(l)).value.name == ""
    ensures StepLine(st, lineNb, l, env, imports) == Next(AddError(st.(key := None), lineNb, l, Unparsable))
  {
    HeaderDispatch(st, lineNb, l, env, imports);
  }

  /** A line whose visible text starts with `[` is handled by the header rule. */
  lemma HeaderDispatch(st: State, lineNb: nat, l: string, env: map<string, string>, imports: Imports)
    requires ValidState(st) && '\n' !in l
    requires "[" <= Strip(l)
    ensures StepLine(st, lineNb, l, env, imports) == Next(HeaderLine(st, lineNb, l, Strip(l)))
  {
    var s := Strip(l);
    assert s[0] == '[';
    assert |s| != 0 && !(";;" <= s) && !("@import" <= s) && !("@insert" <= s);
  }

  lemma StripKeepsDotless(name: string)
    requires '.' !in name && Strip(name) != ""
    ensures '.' !in Strip(name) && !("." <= Strip(name))
  {
    var n := Strip(name);
    var i := LeadingSpaces(name);
    forall j | 0 <= j < |n|
      ensures n[j] != '.'
    {
      assert n[j] == name[i + j];
    }
  }

  /** The header rule on a scalar header for a new dotless name. */
  lemma FreshScalarSection(st: State, lineNb: nat, l: string, n: string)
    requires ValidState(st)
    requires ParseSectionRow(l) == Some(Header(n, false))
    requires |n| > 0 && '.' !in n && !("." <= n) && Lookup(st.file, n).None?
    ensures HeaderLine(st, lineNb, l, l)
      == State(Bind(st.file, n, Single(EmptySection)), st.errors, Some([Step(n, None)]), None)
  {
    DotlessIsTerminal(st.file, n, false);
    assert AddSection(st.file, n, st.section, false) == ResolveIn(st.file, n, false);
    assert ResolveTerminal(st.file, n, false) == (Bind(st.file, n, Single(EmptySection)), Ok([Step(n, None)]));
  }

  /** A scalar header on a new dotless name binds a fresh section and makes it current. */
  lemma NewScalarHeader(st: State, lineNb: nat, name: string, env: map<string, string>, imports: Imports)
    requires ValidState(st)
    requires |name| > 0 && AllScalarNameChars(name) && '\n' !in name && '.' !in name
    requires Strip(name) != "" && Lookup(st.file, Strip(name)).None?
    ensures var n := Strip(name);
      StepLine(st, lineNb, "[" + name + "]", env, imports)
        == Next(State(Bind(st.file, n, Single(EmptySection)), st.errors, Some([Step(n, None)]), None))
  {
    var l := "[" + name + "]";
    var n := Strip(name);
    assert '\n' !in l;
    StripOfTrimmed(l);
    ScalarRowRoundTrip(name);
    StripKeepsDotless(name);
    HeaderDispatch(st, lineNb, l, env, imports);
    FreshScalarSection(st, lineNb, l, n);
  }

  /**
   * An array header on a dotless name appends a fresh section to that name's
   * array section and makes it current; repeated headers list their
   * sections in order.
   */
  lemma ArrayHeader(st: State, lineNb: nat, name: string, env: map<string, string>, imports: Imports)
    requires ValidState(st)
    requires |name| > 0 && AllArrayNameChars(name) && '.' !in name
    ensures var r := StepLine(st, lineNb, "[[" + name + "]]", env, imports);
      && (Lookup(st.file, name).None? ==>
            && r.Next? && r.st.errors == st.errors && r.st.key.None?
            && r.st.section == Some([Step(name, Some(0))])
            && GetSectionList(r.st.file, name) == Ok([EmptySection]))
      && (forall ns :: Lookup(st.file, name) == Some(Many(ns)) ==>
            && r.Next? && r.st.errors == st.errors && r.st.key.None?
            && r.st.section == Some([Step(name, Some(|ns|))])
            && GetSectionList(r.st.file, name) == Ok(ns + [EmptySection]))
  {
    var l := "[[" + name + "]]";
    ArrayHeaderText(name);
    HeaderDispatch(st, lineNb, l, env, imports);
    ArraySectionLine(st, lineNb, l, name);
  }

  /** `[[name]]` for a dotless array name is a one-line header that strips to itself. */
  lemma ArrayHeaderText(name: string)
    requires |name| > 0 && AllArrayNameChars(name) && '.' !in name
    ensures var l := "[[" + name + "]]";
      && '\n' !in l && Strip(l) == l && "[" <= Strip(l)
      && ParseSectionRow(l) == Some(Header(name, true)) && !("." <= name)
  {
    var l := "[[" + name + "]]";
    assert '\n' !in l by {
      assert forall i :: 0 <= i < |name| ==> IsArrayNameChar(name[i]);
    }
    StripOfTrimmed(l);
    ArrayRowRoundTrip(name);
    assert !("." <= name) by {
      assert name[0] in name;
    }
  }

  /** The header rule on an array header for a dotless name. */
  lemma ArraySectionLine(st: State, lineNb: nat, l: string, name: string)
    requires ValidState(st)
    requires ParseSectionRow(l) == Some(Header(name, true))
    requires |name| > 0 && '.' !in name && !("." <= name)
    ensures Lookup(st.file, name).None? ==>
      HeaderLine(st, lineNb, l, l)
        == State(Bind(st.file, name, Many([EmptySection])), st.errors, Some([Step(name, Some(0))]), None)
    ensures forall ns :: Lookup(st.file, name) == Some(Many(ns)) ==>
      HeaderLine(st, lineNb, l, l)
        == State(Bind(st.file, name, Many(ns + [EmptySection])), st.errors, Some([Step(name, Some(|ns|))]), None)
  {
    DotlessIsTerminal(st.file, name, true);
    assert AddSection(st.file, name, st.section, true) == ResolveTerminal(st.file, name, true);
  }

  /** A line whose first visible character starts no other rule goes to the row rule. */
  lemma OtherLineDispatch(st: State, lineNb: nat, l: string, env: map<string, string>, imports: Imports)
    requires ValidState(st) && '\n' !in l
    requires |Strip(l)| > 0 && Strip(l)[0] != ';' && Strip(l)[0] != '@' && Strip(l)[0] != '['
    ensures StepLine(st, lineNb, l, env, imports) == Next(EntryLine(st, lineNb, l, env))
  {
    var s := Strip(l);
    assert !(";;" <= s) && !("@import" <= s) && !("@insert" <= s) && !("[" <= s);
  }

  /** The first visible character of a row is the key's first character, or the operator's. */
  lemma RowFirstVisible(l: string, a: string, key: string, b: string, op: Op, rest: string)
    requires IsRow(l, a, key, b, op, rest)
    ensures |Strip(l)| > 0 && (IsKeyChar(Strip(l)[0]) || Strip(l)[0] == OpText(op)[0])
  {
    var o := OpText(op);
    if |key| > 0 {
      assert l == a + [key[0]] + (key[1..] + b + o + rest);
      StripStartsWith(l, a, key[0], key[1..] + b + o + rest);
    } else {
      assert l == (a + b) + [o[0]] + (o[1..] + rest);
      AllSpaceConcat(a, b);
      StripStartsWith(l, a + b, o[0], o[1..] + rest);
    }
  }

  /** A key/value or continuation row reaches the row rule: its first visible character is a key character or the operator. */
  lemma RowDispatch(st: State, lineNb: nat, l: string, a: string, key: string, b: string, op: Op, rest: string,
                    env: map<string, string>, imports: Imports)
    requires ValidState(st) && '\n' !in l
    requires IsRow(l, a, key, b, op, rest)
    ensures StepLine(st, lineNb, l, env, imports) == Next(EntryLine(st, lineNb, l, env))
    ensures ParseKeyValue(l) == Some(KeyValue(key, op, rest))
  {
    RowFirstVisible(l, a, key, b, op, rest);
    OtherLineDispatch(st, lineNb, l, env, imports);
    KeyValueParses(l, a, key, b, op, rest);
  }

  /** A row outside any section records an error and changes nothing else. */
  lemma RowOutsideSection(st: State, lineNb: nat, l: string, a: string, key: string, b: string, op: Op, rest: string,
                          env: map<string, string>, imports: Imports)
    requires ValidState(st) && '\n' !in l && st.section.None?
    requires IsRow(l, a, key, b, op, rest)
    ensures StepLine(st, lineNb, l, env, imports) == Next(AddError(st, lineNb, l, EntryOutsideSection))
  {
    RowDispatch(st, lineNb, l, a, key, b, op, rest, env, imports);
  }

  /**
   * A row whose value fails (an unset variable) records the error and
   * changes neither the entries nor the current key.
   */
  lemma RowValueFails(st: State, lineNb: nat, l: string, a: string, key: string, b: string, op: Op, rest: string,
                      env: map<string, string>, imports: Imports)
    requires ValidState(st) && '\n' !in l && st.section.Some?
    requires IsRow(l, a, key, b, op, rest)
    requires EntryValue(KeyValue(key, op, rest), env).Err?
    ensures StepLine(st, lineNb, l, env, imports)
      == Next(AddError(st, lineNb, l, ValueFailed(EntryValue(KeyValue(key, op, rest), env).error)))
  {
    RowDispatch(st, lineNb, l, a, key, b, op, rest, env, imports);
    var e := EntryValue(KeyValue(key, op, rest), env).error;
    assert EntryLine(st, lineNb, l, env) == AddError(st, lineNb, l, ValueFailed(e));
  }

  /**
   * A row with a key sets that entry of the current section to the row's
   * value, overwriting any earlier one, and makes the key current.
   */
  lemma RowSetsEntry(st: State, lineNb: nat, l: string, a: string, key: string, b: string, op: Op, rest: string,
                     env: map<string, string>, imports: Imports)
    requires ValidState(st) && '\n' !in l && st.section.Some?
    requires IsRow(l, a, key, b, op, rest) && |key| > 0
    requires EntryValue(KeyValue(key, op, rest), env).Ok?
    ensures var r := StepLine(st, lineNb, l, env, imports);
      var p := st.section.value;
      var v := EntryValue(KeyValue(key, op, rest), env).value;
      && r.Next? && r.st.errors == st.errors && r.st.section == st.section && r.st.key == Some(key)
      && Get(r.st.file, p) == Some(Get(st.file, p).value.(entries := Get(st.file, p).value.entries[key := v]))
  {
    RowDispatch(st, lineNb, l, a, key, b, op, rest, env, imports);
  }

  /**
   * A row without a key continues the current key: a newline and the row's
   * value are appended to its entry. With no current key it is an error.
   */
  lemma RowContinues(st: State, lineNb: nat, l: string, a: string, b: string, op: Op, rest: string,
                     env: map<string, string>, imports: Imports)
    requires ValidState(st) && '\n' !in l && st.section.Some?
    requires IsRow(l, a, "", b, op, rest)
    requires EntryValue(KeyValue("", op, rest), env).Ok?
    ensures var r := StepLine(st, lineNb, l, env, imports);
      var p := st.section.value;
      var v := EntryValue(KeyValue("", op, rest), env).value;
      var n := Get(st.file, p).value;
      && (st.key.None? ==> r == Next(AddError(st, lineNb, l, MissingKey)))
      && (st.key.Some? ==>
            var k := st.key.value;
            && r.Next? && r.st.errors == st.errors && r.st.section == st.section && r.st.key == st.key
            && Get(r.st.file, p) == Some(n.(entries := n.entries[k := n.entries[k] + "\n" + v])))
  {
    RowDispatch(st, lineNb, l, a, "", b, op, rest, env, imports);
  }

  // ---------------------------------------------------------------------
  // A whole run

  /**
   * A header, a key and a continuation row: the continuation appends a
   * newline and its verbatim text to the entry the key row set.
   */
  lemma ContinuationExample(env: map<string, string>, imports: Imports)
    ensures var r := Run(Start, ["[g]", "k = a", ":= b"], 1, env, imports);
      r.Parsed? && r.errors == [] && Get(r.file, [Step("g", None)]) == Some(Node([], map["k" := "a\n b"]))
  {
    var st1 := ExampleHeader(env, imports);
    var st2 := ExampleKeyRow(st1, env, imports);
    var st3 := ExampleContinuation(st2, env, imports);
    assert ValidState(Start);
  }

  lemma ExampleHeader(env: map<string, string>, imports: Imports) returns (st1: State)
    ensures ValidState(st1) && StepLine(Start, 1, "[g]", env, imports) == Next(st1)
    ensures st1 == State([Binding("g", Single(EmptySection))], [], Some([Step("g", None)]), None)
  {
    StripOfTrimmed("g");
    assert AllScalarNameChars("g") && Strip("g") == "g";
    assert Lookup([], "g").None?;
    assert ValidState(Start);
    assert '.' !in "g" && '\n' !in "g";
    assert "[" + "g" + "]" == "[g]";
    NewScalarHeader(Start, 1, "g", env, imports);
    assert Bind([], "g", Single(EmptySection)) == [Binding("g", Single(EmptySection))];
    st1 := State([Binding("g", Single(EmptySection))], [], Some([Step("g", None)]), None);
  }

  lemma ExampleKeyRow(st1: State, env: map<string, string>, imports: Imports) returns (st2: State)
    requires st1 == State([Binding("g", Single(EmptySection))], [], Some([Step("g", None)]), None)
    ensures ValidState(st2) && StepLine(st1, 2, "k = a", env, imports) == Next(st2)
    ensures st2.errors == [] && st2.section == Some([Step("g", None)]) && st2.key == Some("k")
    ensures Get(st2.file, [Step("g", None)]) == Some(Node([], map["k" := "a"]))
  {
    assert ValidState(st1);
    assert IsRow("k = a", "", "k", " ", Plain, " a");
    assert Strip(" a") == "a" by {
      assert LeadingSpaces(" a") == 1;
      assert TrailingStart(" a") == 2;
    }
    NoCommentMarker("a");
    assert EntryValue(KeyValue("k", Plain, " a"), env) == Ok("a");
    RowSetsEntry(st1, 2, "k = a", "", "k", " ", Plain, " a", env, imports);
    st2 := StepLine(st1, 2, "k = a", env, imports).st;
  }

  lemma ExampleContinuation(st2: State, env: map<string, string>, imports: Imports) returns (st3: State)
    requires ValidState(st2)
    requires st2.errors == [] && st2.section == Some([Step("g", None)]) && st2.key == Some("k")
    requires Get(st2.file, [Step("g", None)]) == Some(Node([], map["k" := "a"]))
    ensures ValidState(st3) && StepLine(st2, 3, ":= b", env, imports) == Next(st3)
    ensures st3.errors == [] && Get(st3.file, [Step("g", None)]) == Some(Node([], map["k" := "a\n b"]))
  {
    assert IsRow(":= b", "", "", "", Raw, " b");
    assert '\n' !in ":= b";
    assert EntryValue(KeyValue("", Raw, " b"), env).Ok?;
    RowContinues(st2, 3, ":= b", "", "", Raw, " b", env, imports);
    var r := StepLine(st2, 3, ":= b", env, imports);
    assert r.Next?;
    var n := Node([], map["k" := "a"]);
    assert Get(r.st.file, [Step("g", None)]) == Some(n.(entries := n.entries["k" := n.entries["k"] + "\n" + " b"]));
    JoinedEntry();
    st3 := r.st;
  }

  lemma JoinedEntry()
    ensures map["k" := "a"]["k" := "a" + "\n" + " b"] == map["k" := "a\n b"]
  {
    assert "a" + "\n" + " b" == "a\n b";
  }
}

=== FILE: resolver.dfy ===
/**
 * Section-path resolution: how a header name such as `a.b.c`, `[[list]]` or
 * `.sibling` finds or creates the section it names (`SrcfgFile._add_section`).
 *
 * The first dot splits a name into a head and a tail. The head must be (or
 * becomes) a scalar section and the tail is resolved inside it; a name without
 * a dot is the terminal segment, the only one an array request applies to.
 * Sections created on the way stay in the tree even when a later step fails.
 */
module Resolver {
  import opened Basics
  import opened Text
  import opened Tree

  datatype ResolveError =
    | DotOutsideSection          // a dot-prefixed name with no current section
    | NotAnArray(name: string)   // an array request on a name bound to one section
    | IsAnArray(name: string)    // a scalar request on a name bound to an array section
    | PathThroughArray(name: string)  // a dotted path whose head is an array section

  /** `name.split(".", maxsplit=1)`: the head, and the tail when there is a dot. */
  function SplitFirstDot(name: string): (r: (string, Option<string>))
    ensures r.1.None? ==> r.0 == name && '.' !in name
    ensures r.1.Some? ==> name == r.0 + "." + r.1.value && '.' !in r.0
  {
    match IndexOfChar(name, '.')
    case None => (name, None)
    case Some(i) =>
      assert name == name[..i] + "." + name[i + 1..];
      (name[..i], Some(name[i + 1..]))
  }

  lemma SplitAtFirstDot(name: string, head: string, tail: string)
    requires SplitFirstDot(name) == (head, Some(tail))
    ensures Split(name, '.') == [head] + Split(tail, '.')
  {
    assert IndexOfChar(name, '.') == Some(|head|) by {
      assert name[|head|] == '.' && name[..|head|] == head;
    }
    assert name[|head| + 1..] == tail;
  }

  /** The names along a path. */
  function Names(p: Path): (r: seq<string>)
    ensures |r| == |p|
    ensures forall i :: 0 <= i < |p| ==> r[i] == p[i].name
  {
    if |p| == 0 then [] else [p[0].name] + Names(p[1..])
  }

  /** The path's names are the dot-separated segments of `name`. */
  predicate SpellsOut(p: Path, name: string) {
    && Join(Names(p), '.') == name
    && forall i :: 0 <= i < |p| ==> '.' !in p[i].name
  }

  /** The segments a path spells out are those `name.split(".")` returns. */
  lemma SpellsOutSplit(p: Path, name: string)
    requires |p| > 0 && SpellsOut(p, name)
    ensures Names(p) == Split(name, '.')
  {
    SplitJoin(Names(p), '.');
  }

  lemma ShapedCons(head: string, q: Path, isArray: bool, tail: string)
    requires Shaped(q, isArray)
    ensures Shaped([Step(head, None)] + q, isArray)
    ensures Names([Step(head, None)] + q) == [head] + Names(q)
    ensures '.' !in head && SpellsOut(q, tail) ==> SpellsOut([Step(head, None)] + q, head + "." + tail)
  {
    var p := [Step(head, None)] + q;
    assert p[1..] == q;
    assert Names(p) == [head] + Names(q);
    forall i | 0 <= i < |p| - 1
      ensures p[i].index.None?
    {
      if i > 0 {
        assert p[i] == q[i - 1];
      }
    }
  }

  /** The shape every resolved path has: scalar steps, then a last step that is an
      array element exactly when an array section was asked for. */
  predicate Shaped(p: Path, isArray: bool) {
    && |p| > 0
    && (forall i :: 0 <= i < |p| - 1 ==> p[i].index.None?)
    && (p[|p| - 1].index.Some? <==> isArray)
  }

  /**
   * The terminal segment of `_add_section`: a name without a dot, looked up
   * in the child map `cs` of the reference section (or of the file).
   */
  function ResolveTerminal(cs: Children, name: string, isArray: bool): (r: (Children, Result<Path, ResolveError>))
    ensures r.1.Ok? ==> Get(r.0, r.1.value).Some?
    ensures r.1.Ok? ==> r.1.value == [Step(name, r.1.value[0].index)] && (r.1.value[0].index.Some? <==> isArray)
    ensures r.1.Ok? ==> Names(r.1.value) == [name] && Shaped(r.1.value, isArray)
    ensures r.1.Ok? && '.' !in name ==> SpellsOut(r.1.value, name)
  {
    if isArray then
      match Lookup(cs, name)
      case Some(Single(_)) => (cs, Err(NotAnArray(name)))
      case Some(Many(ns)) => (Bind(cs, name, Many(ns + [EmptySection])), Ok([Step(name, Some(|ns|))]))
      case None => (Bind(cs, name, Many([EmptySection])), Ok([Step(name, Some(0))]))
    else
      match Lookup(cs, name)
      case Some(Single(_)) => (cs, Ok([Step(name, None)]))
      case Some(Many(_)) => (cs, Err(IsAnArray(name)))
      case None => (Bind(cs, name, Single(EmptySection)), Ok([Step(name, None)]))
  }

  /**
   * `_add_section(name, None, ref, is_array)` on the child map `cs` of the
   * reference section (or of the file): the map after the call, and the path of
   * the section found or created, relative to the reference.
   */
  function ResolveIn(cs: Children, name: string, isArray: bool): (r: (Children, Result<Path, ResolveError>))
    ensures r.1.Ok? ==> Get(r.0, r.1.value).Some?
    ensures r.1.Ok? ==> SpellsOut(r.1.value, name) && Shaped(r.1.value, isArray)
    decreases |name|
  {
    match SplitFirstDot(name)
    case (_, None) =>
      ResolveTerminal(cs, name, isArray)
    case (head, Some(tail)) =>
      var found := Lookup(cs, head);
      if found.Some? && found.value.Many? then (cs, Err(PathThroughArray(head)))
      else
        var sub := if found.Some? then found.value.node else EmptySection;
        if "." <= tail then
          // the recursive call is made without a current section
          (Bind(cs, head, Single(sub)), Err(DotOutsideSection))
        else
          var inner := ResolveIn(sub.children, tail, isArray);
          Descend(cs, head, sub, tail, isArray, inner)
  }

  /** A name without a dot is resolved by the last-segment rule alone. */
  lemma DotlessIsTerminal(cs: Children, name: string, isArray: bool)
    requires '.' !in name
    ensures ResolveIn(cs, name, isArray) == ResolveTerminal(cs, name, isArray)
  {
    assert SplitFirstDot(name).1.None?;
  }

  /** The head section `sub` rebound under `head` after the tail was resolved inside it. */
  function Descend(cs: Children, head: string, sub: Node, tail: string, isArray: bool,
                   inner: (Children, Result<Path, ResolveError>)): (r: (Children, Result<Path, ResolveError>))
    requires '.' !in head
    requires inner.1.Ok? ==> Get(inner.0, inner.1.value).Some?
    requires inner.1.Ok? ==> SpellsOut(inner.1.value, tail) && Shaped(inner.1.value, isArray)
    ensures r.0 == Bind(cs, head, Single(sub.(children := inner.0)))
    ensures r.1.Err? <==> inner.1.Err?
    ensures r.1.Err? ==> r.1 == Err(inner.1.error)
    ensures r.1.Ok? ==> r.1.value == [Step(head, None)] + inner.1.value
    ensures r.1.Ok? ==> Get(r.0, r.1.value).Some?
    ensures r.1.Ok? ==> SpellsOut(r.1.value, head + "." + tail) && Shaped(r.1.value, isArray)
  {
    var cs' := Bind(cs, head, Single(sub.(children := inner.0)));
    match inner.1
    case Err(e) => (cs', Err(e))
    case Ok(q) =>
      var p := [Step(head, None)] + q;
      assert Get(cs', p) == Get(inner.0, q) by {
        assert p[0] == Step(head, None) && p[1..] == q;
      }
      ShapedCons(head, q, isArray, tail);
      (cs', Ok(p))
  }

  /**
   * `_get_top_section()`: the outermost ancestor of the section at `p`, the
   * one whose parent is the file.
   */
  function TopSection(p: Path): (r: Path)
    requires |p| > 0
    ensures |r| == 1 && r <= p
  {
    p[..1]
  }

  /** The top section of an existing section exists, and the section lies inside it. */
  lemma TopSectionExists(cs: Children, p: Path)
    requires Get(cs, p).Some?
    ensures Get(cs, TopSection(p)).Some?
    ensures |p| > 1 ==> Get(cs, p) == Get(Get(cs, TopSection(p)).value.children, p[1..])
  {
    assert TopSection(p)[0] == p[0];
  }

  /**
   * `SrcfgFile._add_section(name, current_section, None, is_array)` on the
   * file's section map. A dot-prefixed name needs a current section; it then
   * loses the dot and resolves under the current section's outermost ancestor,
   * the first step of the current path.
   */
  function AddSection(file: Children, name: string, current: Option<Path>, isArray: bool): (r: (Children, Result<Path, ResolveError>))
    requires current.Some? ==> Get(file, current.value).Some?
    ensures "." <= name && current.None? ==> r == (file, Err(DotOutsideSection))
    ensures r.1.Ok? ==> Get(r.0, r.1.value).Some?
    ensures r.1.Ok? && !("." <= name) ==> SpellsOut(r.1.value, name) && Shaped(r.1.value, isArray)
    ensures r.1.Ok? && "." <= name ==>
      && |r.1.value| > 1
      && r.1.value[..1] == TopSection(current.value)
      && SpellsOut(r.1.value[1..], name[1..])
      && Shaped(r.1.value[1..], isArray)
  {
    if "." <= name then
      if current.None? then (file, Err(DotOutsideSection))
      else
        var top := TopSection(current.value);
        TopSectionExists(file, current.value);
        var t := Get(file, top).value;
        var (cs, res) := ResolveIn(t.children, name[1..], isArray);
        var file' := Modify(file, top, t.(children := cs));
        match res
        case Err(e) => (file', Err(e))
        case Ok(p) =>
          assert Get(file', top + p) == Get(cs, p) by {
            GetExtend(file', top, p);
          }
          assert (top + p)[..1] == top && (top + p)[1..] == p;
          (file', Ok(top + p))
    else
      ResolveIn(file, name, isArray)
  }

  /** Following one step and then a path is following the longer path. */
  lemma GetExtend(cs: Children, top: Path, p: Path)
    requires |top| == 1 && |p| > 0 && Get(cs, top).Some?
    ensures Get(cs, top + p) == Get(Get(cs, top).value.children, p)
  {
    assert (top + p)[0] == top[0];
    assert (top + p)[1..] == p;
  }

  // ---------------------------------------------------------------------
  // Properties of resolution

  /** Resolution only adds: every section reachable before is reachable after, whether it succeeds or fails. */
  lemma {:induction false} ResolveKeeps(cs: Children, name: string, isArray: bool)
    ensures Keeps(cs, ResolveIn(cs, name, isArray).0)
    decreases |name|
  {
    match SplitFirstDot(name)
    case (_, None) =>
      match Lookup(cs, name) {
        case Some(Many(ns)) =>
          if isArray {
            AppendKeeps(ns, [EmptySection]);
            BindKeeps(cs, name, Many(ns + [EmptySection]));
          }
        case None =>
          BindKeeps(cs, name, if isArray then Many([EmptySection]) else Single(EmptySection));
        case Some(Single(_)) =>
      }
    case (head, Some(tail)) =>
      var found := Lookup(cs, head);
      if !(found.Some? && found.value.Many?) {
        var sub := if found.Some? then found.value.node else EmptySection;
        if "." <= tail {
          KeepsReflexive(sub.children);
          SingleKeeps(sub, sub);
          BindKeeps(cs, head, Single(sub));
        } else {
          var inner := ResolveIn(sub.children, tail, isArray);
          ResolveKeeps(sub.children, tail, isArray);
          SingleKeeps(sub, sub.(children := inner.0));
          BindKeeps(cs, head, Single(sub.(children := inner.0)));
        }
      }
  }

  /** The same for a header resolved from the file, dot-prefixed or not. */
  lemma AddSectionKeeps(file: Children, name: string, current: Option<Path>, isArray: bool)
    requires current.Some? ==> Get(file, current.value).Some?
    ensures Keeps(file, AddSection(file, name, current, isArray).0)
  {
    if "." <= name && current.Some? {
      var top := TopSection(current.value);
      TopSectionExists(file, current.value);
      var t := Get(file, top).value;
      ResolveKeeps(t.children, name[1..], isArray);
      ModifyKeeps(file, top, t.(children := ResolveIn(t.children, name[1..], isArray).0));
    } else if !("." <= name) {
      ResolveKeeps(file, name, isArray);
    } else {
      KeepsReflexive(file);
    }
  }

  /**
   * Resolving a scalar path a second time finds the section the first call
   * found or created, and changes nothing: each segment is created once.
   */
  lemma {:induction false} ResolveScalarIdempotent(cs: Children, name: string)
    requires ResolveIn(cs, name, false).1.Ok?
    ensures ResolveIn(ResolveIn(cs, name, false).0, name, false) == ResolveIn(cs, name, false)
    decreases |name|
  {
    var first := ResolveIn(cs, name, false);
    match SplitFirstDot(name)
    case (_, None) =>
      assert Lookup(first.0, name).Some? && Lookup(first.0, name).value.Single?;
    case (head, Some(tail)) =>
      var found := Lookup(cs, head);
      var sub := if found.Some? then found.value.node else EmptySection;
      var inner := ResolveIn(sub.children, tail, false);
      ResolveScalarIdempotent(sub.children, tail);
      var sub1 := sub.(children := inner.0);
      assert first.0 == Bind(cs, head, Single(sub1));
      assert Lookup(first.0, head) == Some(Single(sub1));
      assert ResolveIn(sub1.children, tail, false) == inner;
      BindSame(first.0, head, Single(sub1));
      assert sub1.(children := inner.0) == sub1;
  }

  /**
   * An array header on a dotless name appends one fresh section to the end of
   * that name's array section (or binds a one-element array); the earlier
   * elements keep their order and no other name changes. On a scalar-bound
   * name it fails and changes nothing.
   */
  lemma ArrayHeaderAppends(cs: Children, name: string)
    requires '.' !in name
    ensures var r := ResolveIn(cs, name, true);
      && (forall m :: m != name ==> Lookup(r.0, m) == Lookup(cs, m))
      && (Lookup(cs, name).None? ==>
            GetSectionList(r.0, name) == Ok([EmptySection]) && r.1 == Ok([Step(name, Some(0))]))
      && (forall ns :: Lookup(cs, name) == Some(Many(ns)) ==>
            GetSectionList(r.0, name) == Ok(ns + [EmptySection]) && r.1 == Ok([Step(name, Some(|ns|))]))
      && (Lookup(cs, name).Some? && Lookup(cs, name).value.Single? ==>
            r == (cs, Err(NotAnArray(name))))
  {
    assert SplitFirstDot(name).1.None?;
  }

  /**
   * A scalar header on a dotless name returns the section already bound to it,
   * or binds a fresh one; on an array-bound name it fails and changes nothing.
   */
  lemma ScalarHeaderFindsOrCreates(cs: Children, name: string)
    requires '.' !in name
    ensures var r := ResolveIn(cs, name, false);
      && (forall m :: m != name ==> Lookup(r.0, m) == Lookup(cs, m))
      && (Lookup(cs, name).None? ==>
            GetSection(r.0, name) == Ok(EmptySection) && r.1 == Ok([Step(name, None)]))
      && (Lookup(cs, name).Some? && Lookup(cs, name).value.Single? ==>
            r == (cs, Ok([Step(name, None)])))
      && (Lookup(cs, name).Some? && Lookup(cs, name).value.Many? ==>
            r == (cs, Err(IsAnArray(name))))
  {
    assert SplitFirstDot(name).1.None?;
  }

  /**
   * A dotted path through an array section fails and changes nothing; any
   * other dotted path leaves its head bound to one section afterwards, even
   * when a later segment fails.
   */
  lemma DottedPathHead(cs: Children, name: string, head: string, tail: string, isArray: bool)
    requires SplitFirstDot(name) == (head, Some(tail))
    ensures var r := ResolveIn(cs, name, isArray);
      && (Lookup(cs, head).Some? && Lookup(cs, head).value.Many? ==> r == (cs, Err(PathThroughArray(head))))
      && (!(Lookup(cs, head).Some? && Lookup(cs, head).value.Many?) ==> GetSection(r.0, head).Ok?)
      && (forall m :: m != head ==> Lookup(r.0, m) == Lookup(cs, m))
  {
  }

  /** `count` array headers for the same dotless name, one after the other. */
  function ResolveRepeatedly(cs: Children, name: string, count: nat): Children
  {
    if count == 0 then cs else ResolveIn(ResolveRepeatedly(cs, name, count - 1), name, true).0
  }

  /** `count` fresh sections. */
  function FreshSections(count: nat): (r: seq<Node>)
    ensures |r| == count && forall i :: 0 <= i < count ==> r[i] == EmptySection
  {
    if count == 0 then [] else FreshSections(count - 1) + [EmptySection]
  }

  /** Repeated `[[name]]` headers build an array with one fresh section per header. */
  lemma {:induction false} RepeatedArrayHeaders(cs: Children, name: string, count: nat)
    requires '.' !in name && Lookup(cs, name).None? && count > 0
    ensures GetSectionList(ResolveRepeatedly(cs, name, count), name) == Ok(FreshSections(count))
  {
    var prev := ResolveRepeatedly(cs, name, count - 1);
    assert SplitFirstDot(name).1.None?;
    if count > 1 {
      RepeatedArrayHeaders(cs, name, count - 1);
      assert Lookup(prev, name) == Some(Many(FreshSections(count - 1)));
    } else {
      assert prev == cs;
      assert FreshSections(1) == [EmptySection];
    }
  }

  /**
   * In `a..b` the recursive call sees `.b` without a current section: the
   * header fails with the dot error, after `a` has been created.
   */
  lemma DoubleDotFailsAfterCreatingHead(cs: Children)
    requires Lookup(cs, "a").None?
    ensures ResolveIn(cs, "a..b", false) == (Bind(cs, "a", Single(EmptySection)), Err(DotOutsideSection))
  {
    var name := "a..b";
    assert name[0] == 'a' && name[1] == '.';
    assert IndexOfChar(name, '.') == Some(1) by {
      assert name[1] in name;
    }
    assert name[..1] == "a" && name[2..] == ".b";
    assert SplitFirstDot(name) == ("a", Some(".b"));
  }
}

=== FILE: text.dfy ===
/**
 * String primitives the configuration parser relies on: Python's notion of
 * whitespace, `str.strip`, substring search, `str.split` on one separator,
 * and `str.replace` (all occurrences, left to right, non-overlapping).
 */
module Text {
  import opened Basics

  /** The characters for which Python's `str.isspace()` holds; the `\s` class of a
      `str` regular expression matches the same set. */
  predicate IsSpace(c: char) {
    || c == ' '
    || ('\t' <= c <= '\r')
    || ('\U{1C}' <= c <= '\U{1F}')
    || c == '\U{85}'
    || c == '\U{A0}'
    || c == '\U{1680}'
    || ('\U{2000}' <= c <= '\U{200A}')
    || c == '\U{2028}'
    || c == '\U{2029}'
    || c == '\U{202F}'
    || c == '\U{205F}'
    || c == '\U{3000}'
  }

  predicate AllSpace(s: string) {
    forall i :: 0 <= i < |s| ==> IsSpace(s[i])
  }

  /** Neither end of `s` is whitespace: what `str.strip()` guarantees of its result. */
  predicate NoSpaceAtEnds(s: string) {
    |s| == 0 || (!IsSpace(s[0]) && !IsSpace(s[|s| - 1]))
  }

  /** Length of the whitespace run at the start of `s`. */
  function LeadingSpaces(s: string): (k: nat)
    ensures k <= |s|
    ensures AllSpace(s[..k])
    ensures k < |s| ==> !IsSpace(s[k])
  {
    if |s| == 0 || !IsSpace(s[0]) then 0
    else
      var k := 1 + LeadingSpaces(s[1..]);
      assert s[..k] == [s[0]] + s[1..][..k - 1];
      k
  }

  /** Index just past the last non-whitespace character of `s` (0 if there is none). */
  function TrailingStart(s: string): (k: nat)
    ensures k <= |s|
    ensures AllSpace(s[k..])
    ensures k > 0 ==> !IsSpace(s[k - 1])
  {
    if |s| == 0 || !IsSpace(s[|s| - 1]) then |s|
    else
      var k := TrailingStart(s[..|s| - 1]);
      assert s[k..] == s[..|s| - 1][k..] + [s[|s| - 1]];
      k
  }

  /** Python's `str.strip()` with no argument. */
  function Strip(s: string): (r: string)
    ensures NoSpaceAtEnds(r)
    ensures LeadingSpaces(s) + |r| <= |s|
    ensures r == s[LeadingSpaces(s)..LeadingSpaces(s) + |r|]
    ensures AllSpace(s[..LeadingSpaces(s)]) && AllSpace(s[LeadingSpaces(s) + |r|..])
  {
    var a := LeadingSpaces(s);
    if a == |s| then ""
    else
      var b := TrailingStart(s);
      assert a < b;
      s[a..b]
  }

  /** Leading whitespace followed by more text: the run goes on into the text. */
  lemma {:induction false} LeadingSpacesAppend(x: string, y: string)
    requires AllSpace(x)
    ensures LeadingSpaces(x + y) == |x| + LeadingSpaces(y)
    decreases |x|
  {
    if |x| > 0 {
      assert (x + y)[1..] == x[1..] + y;
      LeadingSpacesAppend(x[1..], y);
    } else {
      assert x + y == y;
    }
  }

  /** The first visible character of a line is the first character of its strip. */
  lemma StripStartsWith(l: string, x: string, c: char, y: string)
    requires AllSpace(x) && !IsSpace(c) && l == x + [c] + y
    ensures |Strip(l)| > 0 && Strip(l)[0] == c
  {
    LeadingSpacesAppend(x, [c] + y);
    assert l == x + ([c] + y);
    assert LeadingSpaces(l) == |x|;
  }

  /** A string with no surrounding whitespace is its own strip. */
  lemma StripOfTrimmed(s: string)
    requires NoSpaceAtEnds(s)
    ensures Strip(s) == s
  {
    if |s| > 0 {
      assert LeadingSpaces(s) == 0;
    }
  }

  /** `pat` occurs in `s` at index `k`. */
  predicate OccursAt(s: string, pat: string, k: nat) {
    k + |pat| <= |s| && s[k..k + |pat|] == pat
  }

  /** First index at or after `from` where `pat` occurs in `s`. */
  function FindFrom(s: string, pat: string, from: nat): (r: Option<nat>)
    requires from <= |s|
    ensures r.Some? ==> from <= r.value && OccursAt(s, pat, r.value)
    ensures r.Some? ==> forall k: nat :: from <= k < r.value ==> !OccursAt(s, pat, k)
    ensures r.None? ==> forall k: nat :: from <= k ==> !OccursAt(s, pat, k)
    decreases |s| - from
  {
    if OccursAt(s, pat, from) then Some(from)
    else if from == |s| then None
    else FindFrom(s, pat, from + 1)
  }

  /** Python's `s.index(pat)` / `pat in s`: the first occurrence of `pat`, if any. */
  function IndexOf(s: string, pat: string): (r: Option<nat>)
    ensures r.Some? ==> OccursAt(s, pat, r.value)
    ensures r.Some? ==> forall k: nat :: k < r.value ==> !OccursAt(s, pat, k)
    ensures r.None? ==> forall k: nat :: !OccursAt(s, pat, k)
  {
    FindFrom(s, pat, 0)
  }

  /** The pieces joined back with `sep` in between. */
  function Join(parts: seq<string>, sep: char): string
  {
    if |parts| == 0 then ""
    else if |parts| == 1 then parts[0]
    else parts[0] + [sep] + Join(parts[1..], sep)
  }

  /** First index of the character `c` in `s`, if any. */
  function IndexOfChar(s: string, c: char): (r: Option<nat>)
    ensures r.Some? ==> r.value < |s| && s[r.value] == c && c !in s[..r.value]
    ensures r.Some? ==> forall k :: 0 <= k < r.value ==> s[k] != c
    ensures r.None? <==> c !in s
  {
    if |s| == 0 then None
    else if s[0] == c then Some(0)
    else match IndexOfChar(s[1..], c)
      case None => None
      case Some(k) =>
        assert s[..k + 1] == [s[0]] + s[1..][..k];
        Some(k + 1)
  }

  /** Python's `s.split(sep)` for a one-character separator. */
  function Split(s: string, sep: char): (r: seq<string>)
    ensures |r| >= 1
    ensures forall i :: 0 <= i < |r| ==> sep !in r[i]
    ensures Join(r, sep) == s
    decreases |s|
  {
    match IndexOfChar(s, sep)
    case None => [s]
    case Some(i) =>
      var rest := Split(s[i + 1..], sep);
      assert s == s[..i] + [sep] + s[i + 1..];
      [s[..i]] + rest
  }

  /** Splitting a join gives the pieces back when no piece holds the separator. */
  lemma {:induction false} SplitJoin(parts: seq<string>, sep: char)
    requires |parts| >= 1
    requires forall i :: 0 <= i < |parts| ==> sep !in parts[i]
    ensures Split(Join(parts, sep), sep) == parts
    decreases |parts|
  {
    if |parts| > 1 {
      var rest := parts[1..];
      assert Join(parts, sep) == parts[0] + [sep] + Join(rest, sep);
      SplitCons(parts[0], Join(rest, sep), sep);
      SplitJoin(rest, sep);
      assert parts == [parts[0]] + rest;
    }
  }

  /** A separator-free piece, the separator, and more text: the piece is the first split. */
  lemma SplitCons(p: string, rest: string, sep: char)
    requires sep !in p
    ensures Split(p + [sep] + rest, sep) == [p] + Split(rest, sep)
  {
    var s := p + [sep] + rest;
    assert s[|p|] == sep && s[..|p|] == p;
    assert IndexOfChar(s, sep) == Some(|p|);
    assert s[|p| + 1..] == rest;
  }

  /** Python's `s.replace(pat, rep)`: every non-overlapping occurrence, scanning left to right. */
  function ReplaceAll(s: string, pat: string, rep: string): (r: string)
    requires |pat| > 0
    ensures (forall k: nat :: !OccursAt(s, pat, k)) ==> r == s
    decreases |s|
  {
    if pat <= s then
      assert OccursAt(s, pat, 0) by {
        assert s[0..|pat|] == pat;
      }
      rep + ReplaceAll(s[|pat|..], pat, rep)
    else if |s| == 0 then s
    else
      var r := [s[0]] + ReplaceAll(s[1..], pat, rep);
      assert (forall k: nat :: !OccursAt(s, pat, k)) ==> (forall k: nat :: !OccursAt(s[1..], pat, k)) by {
        forall k: nat | OccursAt(s[1..], pat, k)
          ensures OccursAt(s, pat, k + 1)
        {
          assert s[k + 1..k + 1 + |pat|] == s[1..][k..k + |pat|];
        }
      }
      assert (forall k: nat :: !OccursAt(s, pat, k)) ==> r == [s[0]] + s[1..];
      r
  }

  lemma OccursShift(s: string, pat: string, k: nat)
    requires |s| > 0
    ensures OccursAt(s[1..], pat, k) <==> OccursAt(s, pat, k + 1)
  {
    if k + 1 + |pat| <= |s| {
      assert s[k + 1..k + 1 + |pat|] == s[1..][k..k + |pat|];
    }
  }

  /**
   * When `pat` occurs exactly once in `s`, replacing all occurrences splices
   * `rep` in at that one place.
   */
  lemma {:induction false} ReplaceSingleOccurrence(s: string, pat: string, rep: string, p: nat)
    requires |pat| > 0 && OccursAt(s, pat, p)
    requires forall k: nat :: k < p ==> !OccursAt(s, pat, k)
    requires forall k: nat :: k >= p + |pat| ==> !OccursAt(s, pat, k)
    ensures ReplaceAll(s, pat, rep) == s[..p] + rep + s[p + |pat|..]
    decreases p
  {
    if p == 0 {
      ReplaceAtFront(s, pat, rep);
    } else {
      var t := s[1..];
      calc {
        ReplaceAll(s, pat, rep);
      == { ReplaceSkipsChar(s, pat, rep); }
        [s[0]] + ReplaceAll(t, pat, rep);
      == { ShiftUnique(s, pat, p); ReplaceSingleOccurrence(t, pat, rep, p - 1); }
        [s[0]] + (t[..p - 1] + rep + t[p - 1 + |pat|..]);
      == { ConsSplice(s, pat, rep, p); }
        s[..p] + rep + s[p + |pat|..];
      }
    }
  }

  /** Splicing into the tail, then putting the first character back, splices into the whole. */
  lemma ConsSplice(s: string, pat: string, rep: string, p: nat)
    requires 0 < p && p + |pat| <= |s|
    ensures [s[0]] + (s[1..][..p - 1] + rep + s[1..][p - 1 + |pat|..]) == s[..p] + rep + s[p + |pat|..]
  {
    assert s[..p] == [s[0]] + s[1..][..p - 1];
    assert s[1..][p - 1 + |pat|..] == s[p + |pat|..];
  }

  /** A prefix is an occurrence at index 0. */
  lemma PrefixOccurs(s: string, pat: string)
    ensures pat <= s <==> OccursAt(s, pat, 0)
  {
    if pat <= s {
      assert s[0..|pat|] == pat;
    }
  }

  /** Where the pattern does not start, `replace` keeps the first character and goes on. */
  lemma ReplaceSkipsChar(s: string, pat: string, rep: string)
    requires |pat| > 0 && |s| > 0 && !OccursAt(s, pat, 0)
    ensures ReplaceAll(s, pat, rep) == [s[0]] + ReplaceAll(s[1..], pat, rep)
  {
    PrefixOccurs(s, pat);
  }

  /** A single occurrence past the first character stays single after dropping that character. */
  lemma ShiftUnique(s: string, pat: string, p: nat)
    requires p > 0 && OccursAt(s, pat, p)
    requires forall k: nat :: k < p ==> !OccursAt(s, pat, k)
    requires forall k: nat :: k >= p + |pat| ==> !OccursAt(s, pat, k)
    ensures OccursAt(s[1..], pat, p - 1)
    ensures forall k: nat :: k < p - 1 ==> !OccursAt(s[1..], pat, k)
    ensures forall k: nat :: k >= p - 1 + |pat| ==> !OccursAt(s[1..], pat, k)
  {
    OccursShift(s, pat, p - 1);
    forall k: nat
      ensures OccursAt(s[1..], pat, k) <==> OccursAt(s, pat, k + 1)
    {
      OccursShift(s, pat, k);
    }
  }

  lemma ReplaceAtFront(s: string, pat: string, rep: string)
    requires |pat| > 0 && OccursAt(s, pat, 0)
    requires forall k: nat :: k >= |pat| ==> !OccursAt(s, pat, k)
    ensures ReplaceAll(s, pat, rep) == rep + s[|pat|..]
  {
    assert pat <= s;
    var rest := s[|pat|..];
    forall k: nat
      ensures !OccursAt(rest, pat, k)
    {
      assert !OccursAt(s, pat, k + |pat|);
      if k + |pat| <= |rest| {
        assert s[k + |pat|..k + |pat| + |pat|] == rest[k..k + |pat|];
      }
    }
  }
}

=== FILE: tree.dfy ===
/**
 * The configuration tree. A file maps section names to either one section or
 * a list of sections (an array section); a section has the same kind of
 * child map plus string entries. Python dictionaries keep insertion order and
 * the merge walks them in that order, so the child map is an ordered list of
 * bindings: looking a name up finds its binding, assigning to a bound name
 * replaces the binding in place, assigning to a new name appends it.
 *
 * A section's parent reference is replaced by its path from the file: one step
 * per level, naming the child and, for an array section, the element index.
 */
module Tree {
  import opened Basics

  datatype Node = Node(children: seq<Binding>, entries: map<string, string>)

  /** What a name is bound to: one section, or an array section. */
  datatype Slot = Single(node: Node) | Many(nodes: seq<Node>)

  datatype Binding = Binding(name: string, slot: Slot)

  type Children = seq<Binding>

  /** The root: sections only, never entries of its own. */
  datatype File = File(sections: Children)

  /** A freshly created section. */
  const EmptySection: Node := Node([], map[])

  /** No name is bound twice, as in a dictionary. */
  predicate Distinct(cs: Children) {
    forall i, j :: 0 <= i < j < |cs| ==> cs[i].name != cs[j].name
  }

  /** Index of the binding of `name`, if it is bound. */
  function Position(cs: Children, name: string): (r: Option<nat>)
    ensures r.Some? ==> r.value < |cs| && cs[r.value].name == name
    ensures r.Some? ==> forall j :: 0 <= j < r.value ==> cs[j].name != name
    ensures r.None? ==> forall j :: 0 <= j < |cs| ==> cs[j].name != name
  {
    if |cs| == 0 then None
    else if cs[0].name == name then Some(0)
    else match Position(cs[1..], name)
      case None => None
      case Some(k) => Some(k + 1)
  }

  /** `cs[name]` when `name in cs`. */
  function Lookup(cs: Children, name: string): Option<Slot>
  {
    match Position(cs, name)
    case None => None
    case Some(i) => Some(cs[i].slot)
  }

  /** `cs[name] = slot`: replaces an existing binding where it stands, otherwise appends. */
  function Bind(cs: Children, name: string, slot: Slot): (r: Children)
    ensures Lookup(r, name) == Some(slot)
    ensures forall m :: m != name ==> Lookup(r, m) == Lookup(cs, m)
    ensures Lookup(cs, name).Some? ==> |r| == |cs| && forall j :: 0 <= j < |cs| ==> r[j].name == cs[j].name
    ensures Lookup(cs, name).None? ==> r == cs + [Binding(name, slot)]
  {
    match Position(cs, name)
    case Some(i) =>
      var r := cs[i := Binding(name, slot)];
      assert Position(r, name) == Some(i) by {
        PositionAgrees(cs, r, name);
      }
      forall m | m != name
        ensures Lookup(r, m) == Lookup(cs, m)
      {
        PositionAgrees(cs, r, m);
      }
      r
    case None =>
      var r := cs + [Binding(name, slot)];
      assert Position(r, name) == Some(|cs|) by {
        PositionOfAppended(cs, name, slot);
      }
      forall m | m != name
        ensures Lookup(r, m) == Lookup(cs, m)
      {
        PositionAgrees(cs, cs, m);
        PositionOfPrefix(cs, Binding(name, slot), m);
      }
      r
  }

  /** Two lists with the same names in the same places agree on positions. */
  lemma {:induction false} PositionAgrees(a: Children, b: Children, name: string)
    requires |a| == |b|
    requires forall j :: 0 <= j < |a| ==> a[j].name == b[j].name
    ensures Position(a, name) == Position(b, name)
    decreases |a|
  {
    if |a| > 0 && a[0].name != name {
      PositionAgrees(a[1..], b[1..], name);
    }
  }

  lemma {:induction false} PositionOfAppended(cs: Children, name: string, slot: Slot)
    requires Position(cs, name).None?
    ensures Position(cs + [Binding(name, slot)], name) == Some(|cs|)
    decreases |cs|
  {
    if |cs| > 0 {
      assert (cs + [Binding(name, slot)])[1..] == cs[1..] + [Binding(name, slot)];
      PositionOfAppended(cs[1..], name, slot);
    }
  }

  lemma {:induction false} PositionOfPrefix(cs: Children, b: Binding, name: string)
    requires b.name != name
    ensures Position(cs + [b], name) == Position(cs, name)
    decreases |cs|
  {
    if |cs| > 0 {
      assert (cs + [b])[1..] == cs[1..] + [b];
      PositionOfPrefix(cs[1..], b, name);
    }
  }

  /** Assigning a name the slot it already has changes nothing. */
  lemma BindSame(cs: Children, name: string, slot: Slot)
    requires Lookup(cs, name) == Some(slot)
    ensures Bind(cs, name, slot) == cs
  {
    var i := Position(cs, name).value;
    assert cs[i] == Binding(name, slot);
  }

  /** Assignment keeps the bindings free of duplicates, as a dictionary's keys are. */
  lemma BindDistinct(cs: Children, name: string, slot: Slot)
    requires Distinct(cs)
    ensures Distinct(Bind(cs, name, slot))
  {
  }

  // ---------------------------------------------------------------------
  // Paths from the file to a section

  /** One level of a path: the child's name, and its index when that name is an array section. */
  datatype Step = Step(name: string, index: Option<nat>)

  type Path = seq<Step>

  /** The section a step selects inside a slot, if the step fits the slot's kind. */
  function Select(slot: Slot, index: Option<nat>): Option<Node>
  {
    match (slot, index)
    case (Single(n), None) => Some(n)
    case (Many(ns), Some(i)) => if i < |ns| then Some(ns[i]) else None
    case _ => None
  }

  /** The slot with the selected section replaced by `n`. */
  function Replace(slot: Slot, index: Option<nat>, n: Node): (r: Slot)
    requires Select(slot, index).Some?
    ensures Select(r, index) == Some(n)
    ensures r.Many? ==> slot.Many? && |r.nodes| == |slot.nodes|
    ensures forall j: nat :: index != Some(j) ==> Select(r, Some(j)) == Select(slot, Some(j))
  {
    match slot
    case Single(_) => Single(n)
    case Many(ns) => Many(ns[index.value := n])
  }

  /** The section a path leads to, if it leads to one. */
  function Get(cs: Children, p: Path): Option<Node>
    decreases p
  {
    if |p| == 0 then None
    else match Lookup(cs, p[0].name)
      case None => None
      case Some(slot) =>
        match Select(slot, p[0].index)
        case None => None
        case Some(n) => if |p| == 1 then Some(n) else Get(n.children, p[1..])
  }

  /** The tree with the section at `p` replaced by `n`. */
  function Modify(cs: Children, p: Path, n: Node): (r: Children)
    requires Get(cs, p).Some?
    ensures Get(r, p) == Some(n)
    ensures forall q: Path :: |q| > 0 && q[0].name != p[0].name ==> Get(r, q) == Get(cs, q)
    decreases p
  {
    var slot := Lookup(cs, p[0].name).value;
    var m := Select(slot, p[0].index).value;
    var m' := if |p| == 1 then n else m.(children := Modify(m.children, p[1..], n));
    Bind(cs, p[0].name, Replace(slot, p[0].index, m'))
  }

  /** A path that leaves `p` at its first step reaches the same section after `p` is replaced. */
  lemma {:induction false} ModifyOther(cs: Children, p: Path, n: Node, q: Path)
    requires Get(cs, p).Some? && |q| > 0 && q[0] != p[0]
    ensures Get(Modify(cs, p, n), q) == Get(cs, q)
  {
    if q[0].name == p[0].name {
      var slot := Lookup(cs, p[0].name).value;
      var m := Select(slot, p[0].index).value;
      var m' := if |p| == 1 then n else m.(children := Modify(m.children, p[1..], n));
      SelectOther(slot, p[0].index, m', q[0].index);
    }
  }

  /** Replacing the selected section leaves every other selection of the slot alone. */
  lemma {:induction false} SelectOther(slot: Slot, index: Option<nat>, m': Node, other: Option<nat>)
    requires Select(slot, index).Some? && other != index
    ensures Select(Replace(slot, index, m'), other) == Select(slot, other)
  {
  }

  /** Below the first step of `p`, the replaced tree is the first step's section with its own replacement. */
  lemma {:induction false} ModifyBelow(cs: Children, p: Path, n: Node, q: Path)
    requires Get(cs, p).Some? && |q| > 1 && q[0] == p[0]
    ensures var m := Select(Lookup(cs, p[0].name).value, p[0].index).value;
      && Get(cs, q) == Get(m.children, q[1..])
      && Get(Modify(cs, p, n), q)
         == if |p| == 1 then Get(n.children, q[1..]) else Get(Modify(m.children, p[1..], n), q[1..])
  {
    var slot := Lookup(cs, p[0].name).value;
    var m := Select(slot, p[0].index).value;
    var m' := if |p| == 1 then n else m.(children := Modify(m.children, p[1..], n));
    var slot' := Replace(slot, p[0].index, m');
    assert Modify(cs, p, n) == Bind(cs, p[0].name, slot');
  }

  /** The first step of a longer `p` leads to a section with the same entries after the replacement. */
  lemma {:induction false} ModifyFirstStep(cs: Children, p: Path, n: Node, q: Path)
    requires Get(cs, p).Some? && |p| > 1 && |q| == 1 && q[0] == p[0]
    ensures Get(cs, q).Some? && Get(Modify(cs, p, n), q).Some?
    ensures Get(Modify(cs, p, n), q).value.entries == Get(cs, q).value.entries
  {
    var slot := Lookup(cs, p[0].name).value;
    var m := Select(slot, p[0].index).value;
    var slot' := Replace(slot, p[0].index, m.(children := Modify(m.children, p[1..], n)));
    assert Modify(cs, p, n) == Bind(cs, p[0].name, slot');
  }

  /**
   * Replacing only the entries of the section at `p` leaves every other
   * section's entries as they were, and no path appears or disappears.
   */
  lemma {:induction false} ModifyEntriesFrame(cs: Children, p: Path, e: map<string, string>, q: Path)
    requires Get(cs, p).Some? && q != p
    ensures var r := Modify(cs, p, Get(cs, p).value.(entries := e));
      && (Get(r, q).Some? <==> Get(cs, q).Some?)
      && (Get(cs, q).Some? ==> Get(r, q).value.entries == Get(cs, q).value.entries)
    decreases p, 1
  {
    var n := Get(cs, p).value.(entries := e);
    if |q| > 0 && q[0] != p[0] {
      ModifyOther(cs, p, n, q);
    } else if |q| > 1 {
      ModifyBelow(cs, p, n, q);
      if |p| > 1 {
        DeeperFrame(cs, p, e, q);
      } else {
        SameChildrenBelow(cs, p, n, q);
      }
    } else if |q| == 1 && |p| > 1 {
      ModifyFirstStep(cs, p, n, q);
    }
  }

  /** The recursive case of `ModifyEntriesFrame`: both paths go on below the same first step. */
  lemma {:induction false} DeeperFrame(cs: Children, p: Path, e: map<string, string>, q: Path)
    requires Get(cs, p).Some? && q != p && |p| > 1 && |q| > 1 && q[0] == p[0]
    ensures var r := Modify(cs, p, Get(cs, p).value.(entries := e));
      && (Get(r, q).Some? <==> Get(cs, q).Some?)
      && (Get(cs, q).Some? ==> Get(r, q).value.entries == Get(cs, q).value.entries)
    decreases p, 0
  {
    var n := Get(cs, p).value.(entries := e);
    var m := Select(Lookup(cs, p[0].name).value, p[0].index).value;
    ModifyBelow(cs, p, n, q);
    ModifyBelow(cs, p, n, p);
    TailsDiffer(p, q);
    ModifyEntriesFrame(m.children, p[1..], e, q[1..]);
  }

  /** Two different paths with the same first step differ after it. */
  lemma TailsDiffer(p: Path, q: Path)
    requires |p| > 0 && |q| > 0 && p[0] == q[0] && p != q
    ensures p[1..] != q[1..]
  {
    assert p == [p[0]] + p[1..] && q == [q[0]] + q[1..];
  }

  /** Below a replaced first step whose section keeps its children, nothing changes. */
  lemma {:induction false} SameChildrenBelow(cs: Children, p: Path, n: Node, q: Path)
    requires Get(cs, p).Some? && |p| == 1 && |q| > 1 && q[0] == p[0]
    requires n.children == Get(cs, p).value.children
    ensures Get(Modify(cs, p, n), q) == Get(cs, q)
  {
    ModifyBelow(cs, p, n, q);
  }

  /** Every path that leads to a section in `cs` still leads to one in `cs'`. */
  ghost predicate Keeps(cs: Children, cs': Children) {
    forall q: Path :: Get(cs, q).Some? ==> Get(cs', q).Some?
  }

  lemma KeepsTransitive(a: Children, b: Children, c: Children)
    requires Keeps(a, b) && Keeps(b, c)
    ensures Keeps(a, c)
  {
  }

  /** Replacing a section by one whose own paths survive keeps every path of the tree. */
  lemma {:induction false} ModifyKeeps(cs: Children, p: Path, n: Node)
    requires Get(cs, p).Some?
    requires Keeps(Get(cs, p).value.children, n.children)
    ensures Keeps(cs, Modify(cs, p, n))
    decreases p
  {
    var r := Modify(cs, p, n);
    var slot := Lookup(cs, p[0].name).value;
    var m := Select(slot, p[0].index).value;
    var m' := if |p| == 1 then n else m.(children := Modify(m.children, p[1..], n));
    var slot' := Replace(slot, p[0].index, m');
    assert r == Bind(cs, p[0].name, slot');
    if |p| > 1 {
      ModifyKeeps(m.children, p[1..], n);
    }
    assert Keeps(m.children, m'.children);
    forall q: Path | Get(cs, q).Some?
      ensures Get(r, q).Some?
    {
      if q[0].name == p[0].name {
        if q[0].index == p[0].index {
          if |q| > 1 {
            assert Get(cs, q) == Get(m.children, q[1..]);
            assert Get(r, q) == Get(m'.children, q[1..]);
          }
        } else {
          assert Select(slot', q[0].index) == Select(slot, q[0].index);
        }
      }
    }
  }

  /** Every section the old slot selects is still selected by the new one, with its paths kept. */
  ghost predicate SlotKeeps(s: Slot, s': Slot) {
    forall idx: Option<nat> :: Select(s, idx).Some? ==>
      Select(s', idx).Some? && Keeps(Select(s, idx).value.children, Select(s', idx).value.children)
  }

  /** Rebinding a name to a slot that keeps the old slot's sections keeps every path. */
  lemma BindKeeps(cs: Children, name: string, s': Slot)
    requires Lookup(cs, name).Some? ==> SlotKeeps(Lookup(cs, name).value, s')
    ensures Keeps(cs, Bind(cs, name, s'))
  {
    var r := Bind(cs, name, s');
    forall q: Path | Get(cs, q).Some?
      ensures Get(r, q).Some?
    {
      if q[0].name == name && |q| > 1 {
        var s := Lookup(cs, name).value;
        assert Get(cs, q) == Get(Select(s, q[0].index).value.children, q[1..]);
        assert Get(r, q) == Get(Select(s', q[0].index).value.children, q[1..]);
      }
    }
  }

  lemma KeepsReflexive(cs: Children)
    ensures Keeps(cs, cs)
  {
  }

  /** A scalar slot whose section keeps its paths keeps the slot's paths. */
  lemma SingleKeeps(n: Node, n': Node)
    requires Keeps(n.children, n'.children)
    ensures SlotKeeps(Single(n), Single(n'))
  {
    forall idx: Option<nat> | Select(Single(n), idx).Some?
      ensures Select(Single(n'), idx) == Some(n')
    {
    }
  }

  /** Sections appended to an array section leave the earlier elements where they were. */
  lemma AppendKeeps(ns: seq<Node>, more: seq<Node>)
    ensures SlotKeeps(Many(ns), Many(ns + more))
  {
    forall idx: Option<nat> | Select(Many(ns), idx).Some?
      ensures Select(Many(ns + more), idx) == Select(Many(ns), idx)
    {
    }
  }

  /** Replacing only the entries of a section keeps every path of the tree. */
  lemma SetEntriesKeeps(cs: Children, p: Path, entries: map<string, string>)
    requires Get(cs, p).Some?
    ensures Keeps(cs, Modify(cs, p, Get(cs, p).value.(entries := entries)))
  {
    ModifyKeeps(cs, p, Get(cs, p).value.(entries := entries));
  }

  // ---------------------------------------------------------------------
  // Read accessors

  /** The failures of the accessors: Python's `KeyError` and the two `ValueError`s. */
  datatype AccessError = NoSuchName(name: string) | UnexpectedList(name: string) | UnexpectedSection(name: string)

  /** What `section[name]` returns: a child binding, or an entry value. */
  datatype Item = SectionItem(slot: Slot) | EntryItem(value: string)

  /** `has_section(name)` and `name in file`: some binding carries the name. */
  function HasSection(cs: Children, name: string): (r: bool)
    ensures r <==> exists i :: 0 <= i < |cs| && cs[i].name == name
  {
    Lookup(cs, name).Some?
  }

  /** `get_section(name)`: the one section bound to `name`. */
  function GetSection(cs: Children, name: string): (r: Result<Node, AccessError>)
    ensures r.Ok? <==> Lookup(cs, name).Some? && Lookup(cs, name).value.Single?
    ensures r.Ok? ==> Lookup(cs, name) == Some(Single(r.value))
    ensures r == Err(NoSuchName(name)) <==> !HasSection(cs, name)
    ensures Lookup(cs, name).Some? && Lookup(cs, name).value.Many? ==> r == Err(UnexpectedList(name))
  {
    match Lookup(cs, name)
    case None => Err(NoSuchName(name))
    case Some(Single(n)) => Ok(n)
    case Some(Many(_)) => Err(UnexpectedList(name))
  }

  /** `get_section_list(name)`: the array section bound to `name`. */
  function GetSectionList(cs: Children, name: string): (r: Result<seq<Node>, AccessError>)
    ensures r.Ok? <==> Lookup(cs, name).Some? && Lookup(cs, name).value.Many?
    ensures r.Ok? ==> Lookup(cs, name) == Some(Many(r.value))
    ensures r == Err(NoSuchName(name)) <==> !HasSection(cs, name)
    ensures Lookup(cs, name).Some? && Lookup(cs, name).value.Single? ==> r == Err(UnexpectedSection(name))
  {
    match Lookup(cs, name)
    case None => Err(NoSuchName(name))
    case Some(Many(ns)) => Ok(ns)
    case Some(Single(_)) => Err(UnexpectedSection(name))
  }

  /** `file[name]`. */
  function FileItem(f: File, name: string): (r: Result<Slot, AccessError>)
    ensures r.Ok? <==> HasSection(f.sections, name)
    ensures r.Ok? ==> Lookup(f.sections, name) == Some(r.value)
    ensures r.Err? ==> r == Err(NoSuchName(name))
  {
    match Lookup(f.sections, name)
    case None => Err(NoSuchName(name))
    case Some(s) => Ok(s)
  }

  /** `name in section`: a child section or an entry, exactly when `section[name]` succeeds. */
  function Contains(n: Node, name: string): (r: bool)
    ensures r <==> GetItem(n, name).Ok?
  {
    HasSection(n.children, name) || name in n.entries
  }

  /** `has_key(name)`: exactly when `get_value(name)` finds a value. */
  function HasKey(n: Node, name: string): (r: bool)
    ensures r <==> GetValue(n, name).Some?
  {
    name in n.entries
  }

  /** `section[name]`: child sections shadow entries of the same name. */
  function GetItem(n: Node, name: string): (r: Result<Item, AccessError>)
    ensures r.Ok? <==> HasSection(n.children, name) || name in n.entries
    ensures HasSection(n.children, name) ==> r == Ok(SectionItem(Lookup(n.children, name).value))
    ensures !HasSection(n.children, name) && name in n.entries ==> r == Ok(EntryItem(n.entries[name]))
    ensures r.Err? ==> r == Err(NoSuchName(name))
  {
    match Lookup(n.children, name)
    case Some(s) => Ok(SectionItem(s))
    case None => if name in n.entries then Ok(EntryItem(n.entries[name])) else Err(NoSuchName(name))
  }

  /**
   * Every name that `has_section` reports can be read by exactly one of
   * `get_section` and `get_section_list`, and an unknown name by neither.
   */
  lemma HasSectionAccessors(cs: Children, name: string)
    ensures HasSection(cs, name) <==> GetSection(cs, name).Ok? || GetSectionList(cs, name).Ok?
    ensures !(GetSection(cs, name).Ok? && GetSectionList(cs, name).Ok?)
  {
  }

  /** `get_value(key, str)` / `get_str(key)`: an absent key gives `None`. */
  function GetValue(n: Node, key: string): (r: Option<string>)
    ensures r.None? <==> key !in n.entries
    ensures r.Some? ==> r.value == n.entries[key]
  {
    if key in n.entries then Some(n.entries[key]) else None
  }
}

=== FILE: value.dfy ===
/**
 * The value interpreter for `key = value` lines (`_parse_value`): the value
 * is cut at the first `;;` comment marker and stripped, then the placeholder
 * found by the pattern `\${(.+)}` is replaced by the environment variable it
 * names. The pattern is greedy, so its name runs to the LAST `}` on the line:
 * `${A} ${B}` names the variable `A} ${B`, and a value has at most one
 * placeholder. Python's `re` `.` does not match a newline, so the name stops
 * at one. The environment is a parameter.
 */
module Value {
  import opened Basics
  import opened Text

  datatype ValueError = MissingEnvVar(name: string)

  /** A match of the placeholder pattern: `${` at `start`, its closing `}` at `close`. */
  datatype Placeholder = Placeholder(start: nat, close: nat)

  predicate OpensAt(v: string, p: nat) {
    p + 1 < |v| && v[p] == '$' && v[p + 1] == '{'
  }

  /** A `}` at `q` can close a placeholder opened at `p`: at least one character and no newline in between. */
  predicate ClosesAt(v: string, p: nat, q: nat) {
    p + 3 <= q < |v| && v[q] == '}' && forall k :: p + 2 <= k < q ==> v[k] != '\n'
  }

  /** The pattern `\${(.+)}` can match `v[p..q + 1]`. */
  predicate MatchesAt(v: string, p: nat, q: nat) {
    OpensAt(v, p) && ClosesAt(v, p, q)
  }

  /** The end of the line that contains index `from`: the first newline at or after it, or the end. */
  function LineEnd(v: string, from: nat): (e: nat)
    requires from <= |v|
    ensures from <= e <= |v|
    ensures forall k :: from <= k < e ==> v[k] != '\n'
    ensures e < |v| ==> v[e] == '\n'
    decreases |v| - from
  {
    if from == |v| || v[from] == '\n' then from else LineEnd(v, from + 1)
  }

  /** The last `}` in `v[lo..hi]`, if any. */
  function LastClose(v: string, lo: nat, hi: nat): (r: Option<nat>)
    requires hi <= |v|
    ensures r.Some? ==> lo <= r.value < hi && v[r.value] == '}'
    ensures r.Some? ==> forall k :: r.value < k < hi ==> v[k] != '}'
    ensures r.None? ==> forall k :: lo <= k < hi ==> v[k] != '}'
    decreases hi
  {
    if hi <= lo then None
    else if v[hi - 1] == '}' then Some(hi - 1)
    else LastClose(v, lo, hi - 1)
  }

  /** The greedy match starting at `p`: the furthest `}` that can close it. */
  function GreedyClose(v: string, p: nat): (r: Option<nat>)
    requires OpensAt(v, p)
    ensures r.Some? ==> ClosesAt(v, p, r.value)
    ensures r.Some? ==> forall q: nat :: ClosesAt(v, p, q) ==> q <= r.value
    ensures r.None? ==> forall q: nat :: !ClosesAt(v, p, q)
  {
    var e := LineEnd(v, p + 2);
    var r := LastClose(v, p + 3, e);
    assert forall q: nat :: ClosesAt(v, p, q) ==> q < e;
    r
  }

  /** The leftmost match at or after `p`, as `re.finditer` finds it first. */
  function MatchFrom(v: string, p: nat): (r: Option<Placeholder>)
    requires p <= |v|
    ensures r.Some? ==> p <= r.value.start && MatchesAt(v, r.value.start, r.value.close)
    ensures r.Some? ==> forall q: nat :: MatchesAt(v, r.value.start, q) ==> q <= r.value.close
    ensures r.Some? ==> forall p': nat, q: nat :: p <= p' < r.value.start ==> !MatchesAt(v, p', q)
    ensures r.None? ==> forall p': nat, q: nat :: p <= p' ==> !MatchesAt(v, p', q)
    decreases |v| - p
  {
    if p + 1 >= |v| then None
    else if OpensAt(v, p) then
      match GreedyClose(v, p)
      case Some(q) => Some(Placeholder(p, q))
      case None => MatchFrom(v, p + 1)
    else MatchFrom(v, p + 1)
  }

  /** The first match of `\${(.+)}` in `v`. */
  function FindPlaceholder(v: string): (r: Option<Placeholder>)
    ensures r.Some? ==> MatchesAt(v, r.value.start, r.value.close)
    ensures r.Some? ==> forall q: nat :: MatchesAt(v, r.value.start, q) ==> q <= r.value.close
    ensures r.Some? ==> forall p': nat, q: nat :: p' < r.value.start ==> !MatchesAt(v, p', q)
    ensures r.None? ==> forall p': nat, q: nat :: !MatchesAt(v, p', q)
  {
    MatchFrom(v, 0)
  }

  /** The variable name a placeholder captures. */
  function PlaceholderName(v: string, ph: Placeholder): string
    requires MatchesAt(v, ph.start, ph.close)
  {
    v[ph.start + 2..ph.close]
  }

  /** `if ";;" in v: v = v[:v.index(";;")].strip()`: the comment marker and what follows it are gone. */
  function StripComment(v: string): (r: string)
    ensures IndexOf(v, ";;").None? ==> r == v
    ensures forall k: nat :: !OccursAt(r, ";;", k)
    ensures '\n' !in v ==> '\n' !in r
  {
    match IndexOf(v, ";;")
    case None => v
    case Some(i) =>
      CommentFreeBeforeMarker(v, i);
      Strip(v[..i])
  }

  /** Cutting at the first `;;` and stripping leaves no `;;` and no new characters. */
  lemma CommentFreeBeforeMarker(v: string, i: nat)
    requires IndexOf(v, ";;") == Some(i)
    ensures forall k: nat :: !OccursAt(Strip(v[..i]), ";;", k)
    ensures forall ch :: ch in Strip(v[..i]) ==> ch in v
  {
    var r := Strip(v[..i]);
    var a := LeadingSpaces(v[..i]);
    assert a + |r| <= i;
    assert r == v[a..a + |r|];
    forall k: nat
      ensures !OccursAt(r, ";;", k)
    {
      SliceOccurs(v, a, r, ";;", k);
    }
    forall ch | ch in r
      ensures ch in v
    {
      var j :| 0 <= j < |r| && r[j] == ch;
      assert r[j] == v[a + j];
    }
  }

  /** An occurrence inside a slice is an occurrence in the whole, shifted by the slice's start. */
  lemma SliceOccurs(v: string, off: nat, r: string, pat: string, k: nat)
    requires off + |r| <= |v| && r == v[off..off + |r|]
    ensures OccursAt(r, pat, k) ==> OccursAt(v, pat, off + k)
  {
    if OccursAt(r, pat, k) {
      assert forall j :: 0 <= j < |r| ==> r[j] == v[off + j];
      assert v[off + k..off + k + |pat|] == r[k..k + |pat|];
    }
  }

  /**
   * The text kept before a comment: when `a` holds no `;;` and does not end
   * in `;`, the first marker of `a + ";;" + b` is the one after `a`, so only
   * `a`, stripped, is kept, whatever `b` holds.
   */
  lemma CommentCut(a: string, b: string)
    requires forall k: nat :: !OccursAt(a, ";;", k)
    requires |a| == 0 || a[|a| - 1] != ';'
    ensures StripComment(a + ";;" + b) == Strip(a)
  {
    var v := a + ";;" + b;
    assert OccursAt(v, ";;", |a|) by {
      assert v[|a|..|a| + 2] == ";;";
    }
    forall k: nat | k < |a|
      ensures !OccursAt(v, ";;", k)
    {
      if k + 2 <= |a| {
        assert v[k..k + 2] == a[k..k + 2];
        assert !OccursAt(a, ";;", k);
      } else {
        assert v[k] == a[|a| - 1];
      }
    }
    assert IndexOf(v, ";;") == Some(|a|);
    assert v[..|a|] == a;
  }

  /** A value without `;` has no comment to cut. */
  lemma NoCommentMarker(v: string)
    requires ';' !in v
    ensures StripComment(v) == v
  {
    forall k: nat | k + 2 <= |v|
      ensures !OccursAt(v, ";;", k)
    {
      assert v[k] in v;
    }
  }

  /**
   * `_parse_value(v)`: the value with its comment removed and its placeholder,
   * if any, replaced by the environment's value, or the name of the missing
   * variable.
   */
  function ParseValue(v: string, env: map<string, string>): (r: Result<string, ValueError>)
    ensures FindPlaceholder(StripComment(v)).None? ==> r == Ok(StripComment(v))
    ensures r.Err? <==>
      var c := StripComment(v);
      FindPlaceholder(c).Some? && PlaceholderName(c, FindPlaceholder(c).value) !in env
    ensures r.Err? ==>
      var c := StripComment(v);
      r.error == MissingEnvVar(PlaceholderName(c, FindPlaceholder(c).value))
    ensures var c := StripComment(v);
      '\n' !in c && FindPlaceholder(c).Some? ==>
      var ph := FindPlaceholder(c).value;
      var name := PlaceholderName(c, ph);
      name in env ==> r == Ok(c[..ph.start] + env[name] + c[ph.close + 1..])
  {
    Substitute(StripComment(v), env)
  }

  /**
   * The placeholder step on the comment-free text `c`. Python's `str.replace`
   * replaces every occurrence of the matched text, so that is what is
   * modelled; on one line the matched text occurs once, so the variable's
   * value is spliced in at the placeholder and the text around it is kept.
   */
  function Substitute(c: string, env: map<string, string>): (r: Result<string, ValueError>)
    ensures FindPlaceholder(c).None? ==> r == Ok(c)
    ensures r.Err? <==> FindPlaceholder(c).Some? && PlaceholderName(c, FindPlaceholder(c).value) !in env
    ensures r.Err? ==> r.error == MissingEnvVar(PlaceholderName(c, FindPlaceholder(c).value))
    ensures '\n' !in c && FindPlaceholder(c).Some? ==>
      var ph := FindPlaceholder(c).value;
      var name := PlaceholderName(c, ph);
      name in env ==> r == Ok(c[..ph.start] + env[name] + c[ph.close + 1..])
  {
    match FindPlaceholder(c)
    case None => Ok(c)
    case Some(ph) =>
      var name := PlaceholderName(c, ph);
      if name !in env then Err(MissingEnvVar(name))
      else
        SpliceOnLine(c, ph, env[name]);
        Ok(ReplaceAll(c, c[ph.start..ph.close + 1], env[name]))
  }

  /** Any other occurrence of a match's text on a line is itself a match. */
  lemma OccurrenceMatches(c: string, ph: Placeholder, k: nat)
    requires '\n' !in c && MatchesAt(c, ph.start, ph.close)
    ensures var pat := c[ph.start..ph.close + 1];
      OccursAt(c, pat, k) ==> MatchesAt(c, k, k + |pat| - 1)
  {
    var pat := c[ph.start..ph.close + 1];
    var n := |pat|;
    if OccursAt(c, pat, k) {
      assert c[k..k + n] == pat;
      assert c[k] == pat[0] == '$' && c[k + 1] == pat[1] == '{' && c[k + n - 1] == pat[n - 1] == '}';
      forall j | k + 2 <= j < k + n - 1
        ensures c[j] != '\n'
      {
        assert c[j] in c;
      }
    }
  }

  /** On a line, every `}` at least three places after an opening `${` can close it. */
  lemma CloseOnLine(c: string, p: nat, q: nat)
    requires '\n' !in c && OpensAt(c, p)
    ensures p + 3 <= q < |c| && c[q] == '}' ==> ClosesAt(c, p, q)
  {
    forall j | p + 2 <= j < q && q < |c|
      ensures c[j] != '\n'
    {
      assert c[j] in c;
    }
  }

  /** On a line, the first match's text occurs nowhere else. */
  lemma MatchOccursOnce(c: string, ph: Placeholder)
    requires '\n' !in c && FindPlaceholder(c) == Some(ph)
    ensures var pat := c[ph.start..ph.close + 1];
      && OccursAt(c, pat, ph.start)
      && (forall k: nat :: k < ph.start ==> !OccursAt(c, pat, k))
      && (forall k: nat :: k >= ph.start + |pat| ==> !OccursAt(c, pat, k))
  {
    var pat := c[ph.start..ph.close + 1];
    var n := |pat|;
    forall k: nat | k < ph.start
      ensures !OccursAt(c, pat, k)
    {
      OccurrenceMatches(c, ph, k);
    }
    forall k: nat | k >= ph.start + n
      ensures !OccursAt(c, pat, k)
    {
      OccurrenceMatches(c, ph, k);
      CloseOnLine(c, ph.start, k + n - 1);
      assert OccursAt(c, pat, k) ==> MatchesAt(c, ph.start, k + n - 1);
    }
  }

  /** Replacing the first match's text on a line splices the replacement in at the match. */
  lemma SpliceOnLine(c: string, ph: Placeholder, rep: string)
    requires FindPlaceholder(c) == Some(ph)
    ensures '\n' !in c ==>
      ReplaceAll(c, c[ph.start..ph.close + 1], rep) == c[..ph.start] + rep + c[ph.close + 1..]
  {
    if '\n' !in c {
      MatchOccursOnce(c, ph);
      ReplaceSingleOccurrence(c, c[ph.start..ph.close + 1], rep, ph.start);
    }
  }

  /** A value that is one whole match has that match as its first placeholder. */
  lemma WholeValueMatch(v: string)
    requires |v| > 0 && MatchesAt(v, 0, |v| - 1)
    ensures FindPlaceholder(v) == Some(Placeholder(0, |v| - 1))
  {
  }

  /** Characters that keep a variable name on one line and out of a comment. */
  predicate PlainName(name: string) {
    '\n' !in name && ';' !in name
  }

  /** `${name}` on one line is a single placeholder naming `name`, and nothing in it is a comment. */
  lemma WrappedName(name: string)
    requires |name| > 0 && PlainName(name)
    ensures var v := "${" + name + "}";
      && '\n' !in v
      && StripComment(v) == v
      && FindPlaceholder(v) == Some(Placeholder(0, |v| - 1))
      && PlaceholderName(v, Placeholder(0, |v| - 1)) == name
  {
    var v := "${" + name + "}";
    assert v[0] == '$' && v[1] == '{' && v[|v| - 1] == '}';
    assert v[2..|v| - 1] == name;
    assert '\n' !in v && ';' !in v by {
      forall j | 0 <= j < |v|
        ensures v[j] != '\n' && v[j] != ';'
      {
        if 2 <= j < |v| - 1 {
          assert v[j] == name[j - 2];
        }
      }
    }
    NoCommentMarker(v);
    CloseOnLine(v, 0, |v| - 1);
    WholeValueMatch(v);
  }

  /** A value that is one placeholder reads as the variable's value, or fails naming it when unset. */
  lemma WholePlaceholder(name: string, env: map<string, string>)
    requires |name| > 0 && PlainName(name)
    ensures ParseValue("${" + name + "}", env)
      == if name in env then Ok(env[name]) else Err(MissingEnvVar(name))
  {
    var v := "${" + name + "}";
    WrappedName(name);
    assert ParseValue(v, env) == Substitute(v, env);
    if name in env {
      assert v[..0] + env[name] + v[|v|..] == env[name];
    }
  }

  /**
   * Two placeholders on one line are one greedy match: `${a} ${b}` asks for
   * the variable `a} ${b`, so it fails even when `a` and `b` are both set.
   */
  lemma GreedyPlaceholder(a: string, b: string, env: map<string, string>)
    requires PlainName(a) && PlainName(b)
    requires a + "} ${" + b !in env
    ensures ParseValue("${" + a + "} ${" + b + "}", env) == Err(MissingEnvVar(a + "} ${" + b))
  {
    var name := a + "} ${" + b;
    assert PlainName("} ${");
    assert PlainName(name);
    assert "${" + a + "} ${" + b + "}" == "${" + name + "}";
    WholePlaceholder(name, env);
  }
}
